=== FILE: README.md ===
# lol-skin-sales, modelled in Dafny

The site shows League of Legends skin sales on three pages:

- the weekly sale page (`scripts/script.js`; the older copy at the root is `script.js`);
- the Mythic-shop page (`scripts/mythic-skins.js`);
- the searchable table of past sales (`scripts/past-sales.js`).

Each page reads sale records from a spreadsheet feed:

- The weekly sale page and the Mythic-shop page resolve each record's champion name against Riot's champion catalog and match its skin name against that champion's skins. They build a splash-image URL and show a card only for the records whose champion resolves, skipping the rest.
- The root `script.js` fetches each champion's data file by a key it derives from the name, and shows a card for each record whose fetch succeeds.
- The past-sales page loads no champion data and builds no URL. It filters the records by search text and week, and shows a table row for each filtered record on the current page, 30 to a page.

This project models that logic as pure functions over immutable sequences and proves what the pages promise.

| file | module | what it holds |
|---|---|---|
| `seqs.dfy` | `Options`, `Seqs` | `Option`; order-preserving filter and first-match search, with their characterisations |
| `ascii.dfy` | `Ascii` | `toLowerCase`, `toUpperCase`, `trim` and `includes` on ASCII text |
| `decimal.dfy` | `Decimal` | the decimal text of an integer (`${n}`), with a parser proving it is unambiguous |
| `records.dfy` | `Records` | a sale record, a skin, a champion, the champion catalog |
| `resolution.dfy` | `Resolution` | the helpers that `scripts/script.js` and `scripts/mythic-skins.js` share: name normalisation, `getChampionId`, `findSkinNumber`, `buildSplashUrl`, the memoised catalog, the skip-unresolved render loop |
| `week_window.dfy` | `WeekWindow` | the current-week arithmetic of both weekly pages |
| `current_sales.dfy` | `CurrentSales` | `renderSkins` of `scripts/script.js` |
| `mythic.dfy` | `Mythic` | the category split, the patch label, `renderCategory`, `renderSkins` |
| `past_sales.dfy` | `PastSales` | `filterSkins`, page slicing, the pagination controls, and the page's events |
| `legacy.dfy` | `Legacy` | the root `script.js`: `formatChampionId`, its own `findSkinNumber` and `buildSplashUrl`, and its render loop |

`scripts/script.js` and `scripts/mythic-skins.js` carry identical copies of `getChampionId`, `findSkinNumber` and `buildSplashUrl`: lines 22-56 in the first and lines 24-57 in the second. They differ only in the patch version used to fetch the catalog. The model defines each helper once, in `Resolution`, and both page modules use it. The table below cites the `scripts/script.js` copy.

Conventions of the model:

- The Data Dragon catalog (`championFull.json`'s `data` object) is a sequence of champions in `Object.values` order. Each entry's object key is its `id` field, as in Data Dragon, so `champFull[championId]` is modelled as the entry whose `id` is `championId`.
- The per-champion fetch of the root page is a map from the formatted key to the champion data. A key missing from the map stands for a fetch that failed, which the page's `catch` turns into a skipped card.
- Time is integer milliseconds: the epoch (`new Date(2025, 7, 4)`) and "now" are parameters.
- `?.num || 0` gives the matched skin's `num`. A `num` of 0 and "no match" both give 0, which is exactly what the expression does.
- The special-case table of `buildSplashUrl` is a finite map. A missing key falls back to the id itself.
- `Math.floor` of the elapsed time over the week length is Dafny's `/`, whose quotient rounds down for a positive divisor. The model is therefore right before the epoch as well as after it.
- `slice(start, end)` follows the JavaScript rules for negative and out-of-range indices.

## Model

| member | source | states |
|---|---|---|
| Resolution.StripSeparators | scripts/script.js:26 | the result is an order-preserving subsequence of the input holding all its characters other than `'` and whitespace, and no others |
| Resolution.Normalize | scripts/script.js:26 | the normalised name is the lower-cased name with exactly its apostrophes and whitespace removed, order kept; it has no separator and no upper-case letter |
| Resolution.NormalizeIdempotent | scripts/script.js:26 | normalising twice is normalising once |
| Resolution.NormalizeIgnoresCase | scripts/script.js:26 | lower-casing first does not change the normal form |
| Resolution.NormalizeIgnoresSeparator | scripts/script.js:26 | inserting one apostrophe or whitespace character anywhere does not change the normal form |
| Resolution.GetChampionId | scripts/script.js:22-29 | null exactly when no catalog entry's normalised name equals the query's; otherwise the id of the first such entry in catalog order |
| Resolution.ResolveSameNormalForm | scripts/script.js:25-28 | two queries with the same normal form resolve to the same id or both to null |
| Resolution.ResolveIgnoresCase | scripts/script.js:25-28 | a query and its lower-cased form resolve alike |
| Resolution.ResolveIgnoresSeparator | scripts/script.js:25-28 | queries that differ by one apostrophe or whitespace character resolve alike |
| Resolution.MatchSkin | scripts/script.js:37-41 | the `num` of the first skin whose trimmed, lower-cased name equals the trimmed, lower-cased query; 0 when none does |
| Resolution.MatchSkinIgnoresCaseAndPadding | scripts/script.js:39 | padding the query with whitespace or changing its case does not change the matched number |
| Resolution.FindSkinNumber | scripts/script.js:32-42 | 0 when no catalog entry has the id; otherwise the skin match within the first entry with that id |
| Resolution.SplashId | scripts/script.js:47-53 | "Fiddlesticks" becomes "FiddleSticks"; every other id is unchanged |
| Resolution.BuildSplashUrl | scripts/script.js:45-56 | the URL parses back into the special-cased id and the given skin number |
| Resolution.BuildSplashUrlExact | scripts/script.js:45-56 | any text that parses back to the special-cased id and that number is the built URL itself, so the URL is fixed character for character (`…/Ahri_0.jpg`, never `…/Ahri_00.jpg`) |
| Resolution.SplashUrlRoundTrip | scripts/script.js:55 | the URL `base + id + "_" + num + ".jpg"` can be parsed back into that id and number, so distinct (id, num) pairs give distinct URLs |
| Resolution.SplashUrlUnique | scripts/script.js:55 | only `base + id + "_" + num + ".jpg"` parses back to that id and number |
| Resolution.BuildSplashUrlNames | scripts/script.js:45-56 | the URL names the special-cased key and the given skin number |
| Resolution.LoadCatalog | scripts/script.js:11-19 | a cached catalog is returned as is; without one, the fetched catalog is returned and becomes the cache |
| Resolution.LoadCatalogOnce | scripts/script.js:12-18 | once loaded, later calls return the first catalog whatever a later fetch would return |
| Resolution.CardFor | scripts/script.js:82-89 | a card exists exactly when the record's champion resolves to a non-empty id (`if (!champId) continue;` skips both `null` and `""`), and it carries that record |
| Resolution.CardShows | scripts/script.js:82-89 | a card names the id its record resolves to and that id's matched skin number, and its URL is filed under the special-cased id and that number |
| Resolution.RenderCards | scripts/script.js:80-108 | the cards' records are exactly the records whose champion resolves, in input order, and each card agrees with the catalog |
| WeekWindow.FloorDiv | scripts/script.js:64 | `q * b <= a < q * b + b`: the quotient rounds down, negative `a` included |
| WeekWindow.CurrentWeek | scripts/script.js:61-66 | start <= now < end; end - start is 604800000 ms; start - epoch is a whole number of weeks, before the epoch too |
| WeekWindow.CurrentWeekUnique | scripts/script.js:64-66 | the displayed week is the only week-aligned window that contains now |
| WeekWindow.CurrentWeekStable | scripts/script.js:64-66 | every instant of the displayed week displays the same week |
| CurrentSales.RenderSkins | scripts/script.js:59-108 | the page shows the current week and exactly the resolvable records' cards, in order |
| Mythic.SplitCategories | scripts/mythic-skins.js:102-104 | featured and biweekly are order-preserving subsequences of the records and are disjoint; each holds every record of its category, case-insensitively, and nothing else |
| Mythic.UncategorisedHidden | scripts/mythic-skins.js:103-104 | a record with no category, or one that is neither "featured" nor "biweekly" after lower-casing, is in neither list |
| Mythic.PatchLabel | scripts/mythic-skins.js:106-109 | no label for an empty feed; otherwise "Current Patch: " followed by the first record's patch, or by "15.24.1" when that patch is missing or empty |
| Mythic.RenderCategory | scripts/mythic-skins.js:60-89 | one card per resolvable record of the section, in order; unresolved champions are skipped |
| Mythic.SectionCardsInCategory | scripts/mythic-skins.js:103-113 | every card of a section belongs to that section's category and to the feed, in feed order |
| Mythic.RenderSkins | scripts/mythic-skins.js:92-116 | the label is the patch label; the featured and biweekly sections show exactly their resolvable records' cards |
| Ascii.LowerStr | scripts/past-sales.js:106 | lower-casing keeps the length and maps each character to lower case |
| Ascii.Trim | scripts/past-sales.js:131 | the result is the window `s[i..j]` with only whitespace before `i` and after `j`, and it neither starts nor ends with whitespace |
| Ascii.TrimPadded | scripts/past-sales.js:131 | trimming ignores any whitespace added at either end |
| Ascii.Contains | scripts/past-sales.js:108 | true exactly when the needle occurs at some position of the haystack |
| Decimal.IntToString | scripts/script.js:55 | the text is the canonical numeral: a minus sign exactly when the number is negative, then digits with no leading zero, never "-0" |
| Decimal.CanonicalIntStringRoundTrip | scripts/script.js:55 | every canonical numeral is the printed text of the number it reads as, so each integer has exactly one such spelling |
| Decimal.ParseNumeral | scripts/script.js:55 | reads a numeral exactly when it is canonical, and the number read prints back as the same text |
| Decimal.NoPaddedNumerals | scripts/script.js:55 | "00", "07" and "-0" are not numerals `${n}` prints, and do not read back |
| Decimal.IntStringRoundTrip | scripts/script.js:55 | the decimal text of the skin number reads back as that number |
| PastSales.FilterSkins | scripts/past-sales.js:105-111 | the result is an order-preserving subsequence of the input; a record is kept exactly when its lower-cased champion or skin name contains the lower-cased query and the week is empty or equals the record's week |
| PastSales.FilterSkinsNoCriteria | scripts/past-sales.js:106-110 | an empty query and an empty week keep the list unchanged |
| PastSales.SliceIndex | scripts/past-sales.js:28 | a slice bound inside `[0, length]` is kept, a negative one counts from the end and stops at 0, and one past the end becomes the length |
| PastSales.JsSlice | scripts/past-sales.js:28 | `slice(start, end)` holds `max(end' - start', 0)` elements, the k-th being `s[start' + k]`, where `start'` and `end'` are the bounds as read |
| PastSales.PageRows | scripts/past-sales.js:26-28 | at most 30 rows, and for page p >= 1 exactly `skins[min(n, (p-1)*30) .. min(n, p*30))` |
| PastSales.RenderTable | scripts/past-sales.js:21-44 | the table shows that page's rows; no controls when the list fits on one page, otherwise controls from button 1 to the last page's button |
| PastSales.PageRowsWindow | scripts/past-sales.js:26-28 | page p shows at most 30 rows: `skins[(p-1)*30 .. min(n, p*30))`, and none when `(p-1)*30 >= n` |
| PastSales.TotalPages | scripts/past-sales.js:51 | the fewest pages of 30 that hold all rows |
| PastSales.PagesUpToPrefix | scripts/past-sales.js:26-28 | pages 1..k laid end to end are the first `min(n, 30k)` rows |
| PastSales.AllPagesReassemble | scripts/past-sales.js:26-28 | pages 1..totalPages laid end to end are the whole list |
| PastSales.ButtonRun | scripts/past-sales.js:81-83 | buttons lo..hi in order, each marked exactly when it is the current page |
| PastSales.Controls | scripts/past-sales.js:47-89 | nothing for at most one page; otherwise starts with button 1 and ends with the last page's button |
| PastSales.ControlsSpacing | scripts/past-sales.js:72-88 | adjacent buttons are consecutive pages, and a "..." stands exactly where page numbers are skipped |
| PastSales.ControlsPages | scripts/past-sales.js:78-88 | the button pages are exactly the pages in [1, totalPages] that are the first, the last, or within 2 of the current page |
| PastSales.ControlsMarkCurrent | scripts/past-sales.js:54-57 | exactly the current page's button is marked active |
| PastSales.ControlsButtons | scripts/past-sales.js:72-88 | button pages strictly increase, lie within [1, totalPages], and include the current page |
| PastSales.ControlsTenPagesAtSix | scripts/past-sales.js:72-88 | ten pages with page 6 current give 1, …, 4, 5, 6, 7, 8, …, 10 |
| PastSales.Init | scripts/past-sales.js:148-149 | the page opens on page 1 with an empty table and no controls |
| PastSales.ApplyFilters | scripts/past-sales.js:130-136 | filtering trims the search text, filters the whole feed, resets the page to 1, and shows the first 30 matches with the controls for page 1 |
| PastSales.ClickPage | scripts/past-sales.js:55-60 | a page button makes its page current and shows that page of the stored list, without filtering again, with the controls redrawn around the clicked page as the active one |
| PastSales.Reset | scripts/past-sales.js:141-145 | reset empties the table and its controls and keeps the whole feed |
| PastSales.EventsKeepPageInRange | scripts/past-sales.js:130-149 | loading, filtering, resetting and clicking a shown button keep the current page a real page of the shown list |
| PastSales.ValidPageHasRows | scripts/past-sales.js:26-28 | in that state a non-empty list shows between 1 and 30 rows |
| Legacy.Split | script.js:14 | `split(" ")` gives at least one piece, none containing a space, and joining them with spaces gives back the input |
| Legacy.Capitalize | script.js:15 | same length; the first character upper-cased and every other character kept |
| Legacy.CapitalizeAll | script.js:15 | the k-th result is the k-th word capitalised, for every k |
| Legacy.FormatChampionId | script.js:11-17 | no space in the result; its length is the input's minus its spaces; it equals the character-by-character title-casing of the input |
| Legacy.FormatIsTitleCase | script.js:12-16 | lower-case, split, capitalise and join is title-casing: each word's first letter upper-cased and the rest lower-cased, spaces dropped |
| Legacy.TitleCaseShape | script.js:12-16 | title-casing drops exactly the spaces |
| Legacy.TitleCaseOfLower | script.js:13 | title-casing ignores the input's letter case |
| Legacy.FormatIgnoresCase | script.js:13 | `formatChampionId(lower(s)) == formatChampionId(s)` |
| Legacy.FormatLeeSin | script.js:11-17 | "Lee  SIN" becomes "LeeSin": an empty word adds nothing |
| Legacy.FindSkinNumber | script.js:28-34 | the `num` of the first trimmed, case-insensitive name match among the champion's skins; 0 when none matches |
| Legacy.BuildSplashUrl | script.js:37-39 | without a special-case table, the URL names the key itself and the skin number |
| Legacy.BuildSplashUrlExact | script.js:37-39 | any text that parses back to the key and number is the built URL itself |
| Legacy.CardFor | script.js:66-70 | a card exists exactly when the formatted key's data was fetched, and it carries the record |
| Legacy.CardShows | script.js:67-70 | a card names the formatted key and the number matched in that key's data, and its URL is filed under both |
| Legacy.RenderCards | script.js:65-89 | the cards' records are exactly the records whose data was fetched, in input order |
| Legacy.RenderSkins | script.js:42-90 | the page shows the current week, computed as in `WeekWindow.CurrentWeek`, and those cards |

## Left out

- Network I/O: the spreadsheet feeds, `championFull.json` and the per-champion files. Their contents are parameters.
- `async`/`await`: the model treats each page's loop as sequential, which is how the source runs it.
- The DOM:
  - the card and row templates and `innerHTML`;
  - the loading spinner, including its hide inside each loop iteration;
  - the full-screen image overlay and its Escape handler;
  - all of `scripts/menu.js`.
  A card or row is modelled by the record it shows and, for cards, the resolved key, skin number and URL.
- The presence check on the patch element (`patchElement &&`): the model assumes the element exists.
- Dates as text: `formatDate`, the `toLocaleDateString` range banner and the local-time construction of the epoch. The epoch and "now" are integer milliseconds.
- `populateWeekDropdown`, which sorts weeks by parsing date strings.
- Characters outside ASCII: `toLowerCase`, `toUpperCase`, `trim` and `\s` are modelled on ASCII letters and the ASCII whitespace characters.
- Records whose `champion` or `skin` is missing or not a string. The model's `champion` and `skin` are always strings. In the source these throw when they are used:
  - `champion`: `name.toLowerCase()` in `getChampionId` (scripts/script.js:26, scripts/mythic-skins.js:30) or `formatChampionId` (script.js:13).
  - `skin`: `skinName.trim()` in `findSkinNumber`, once it is compared with a skin of a non-empty list (scripts/script.js:39, script.js:30).
  The card loops catch the error and skip that record.
- Missing `discount`, `price` or `spotlight` fields. These throw nothing: the card template prints them as "undefined" (for example "undefined% OFF"), so the record still gets its card (scripts/script.js:94,98-99, scripts/mythic-skins.js:78,80, script.js:75,79-80). In the model `discount` is optional and `price` and `spotlight` are always present. None of the three decides whether a card is made, as in the source; the model does not produce the "undefined" text.
- The past-sales page has no per-record `try`. A record whose `champion` is not a string makes `filterSkins` throw on every search (scripts/past-sales.js:108). The same happens for a non-string `skin` whenever the champion name does not already match the query. `applyFilters` then stops before `currentPage = 1` and the re-render (scripts/past-sales.js:131-135), so the table keeps what it showed before. The model's filter always succeeds.
- The `console.error` messages for a champion that is not found (scripts/script.js:84), a card that fails to render (scripts/script.js:104, scripts/mythic-skins.js:86), a failed per-champion fetch (script.js:85) and a failed feed load (scripts/past-sales.js:152). The model keeps the skip that follows each message but not the message, which is output only.
- JavaScript prototype lookups in the special-case table (for example an id of "constructor"). The table is a finite map.
- Decimal.IntToString: skin numbers and timestamps are JavaScript doubles, modelled as exact integers. The decimal text agrees with `${n}` only for integral values below 10^21 in magnitude; larger ones print in exponent form and fractions print with a decimal point.
- Resolution.FindSkinNumber: finds the champion by its `id` field, taking the first entry with that id. The source indexes the catalog object by key. The two agree when each key equals its entry's id, which holds for Data Dragon, whose keys are unique.
- `fetchChampionData` returning `undefined` for a key the file does not contain. The model treats it as a miss in the fetched map, which the page also skips because reading `skins` of `undefined` throws.

=== FILE: ascii.dfy ===
/** ASCII text helpers standing in for JavaScript's `toLowerCase`,
    `toUpperCase`, `trim` and `includes`. Characters outside ASCII are
    left unchanged by the case maps. */
module Ascii {

  predicate IsUpper(c: char) { 'A' <= c <= 'Z' }

  predicate IsLowerLetter(c: char) { 'a' <= c <= 'z' }

  /** The ASCII members of JavaScript's `\s` class, which is also the set
      `trim` removes: space, tab, line feed, vertical tab, form feed and
      carriage return. */
  predicate IsWhitespace(c: char)
  {
    c == ' ' || c == '\t' || c == '\n' || c == '\r' || c as int == 11 || c as int == 12
  }

  function Lower(c: char): (d: char)
    ensures !IsUpper(d)
    ensures IsWhitespace(d) <==> IsWhitespace(c)
    ensures d == c <==> !IsUpper(c)
    ensures IsUpper(c) ==> IsLowerLetter(d)
  {
    if IsUpper(c) then (c as int + 32) as char else c
  }

  function Upper(c: char): (d: char)
    ensures !IsLowerLetter(d)
    ensures d == c <==> !IsLowerLetter(c)
  {
    if IsLowerLetter(c) then (c as int - 32) as char else c
  }

  /** Upper-casing forgets a preceding lower-casing. */
  lemma UpperOfLower(c: char)
    ensures Upper(Lower(c)) == Upper(c)
  {
  }

  /** `String.prototype.toLowerCase` on ASCII text. */
  function LowerStr(s: string): (r: string)
    ensures |r| == |s|
    ensures forall i :: 0 <= i < |s| ==> r[i] == Lower(s[i])
  {
    if s == [] then [] else [Lower(s[0])] + LowerStr(s[1..])
  }

  lemma LowerStrAppend(a: string, b: string)
    ensures LowerStr(a + b) == LowerStr(a) + LowerStr(b)
  {
  }

  /** Lower-casing twice is lower-casing once. */
  lemma LowerStrIdempotent(s: string)
    ensures LowerStr(LowerStr(s)) == LowerStr(s)
  {
  }

  /** Leading whitespace removed (the first half of `trim`). */
  function TrimStart(s: string): (r: string)
    ensures |r| <= |s| && r == s[|s| - |r|..]
    ensures forall k :: 0 <= k < |s| - |r| ==> IsWhitespace(s[k])
    ensures r == [] || !IsWhitespace(r[0])
  {
    if |s| > 0 && IsWhitespace(s[0]) then TrimStart(s[1..]) else s
  }

  /** Trailing whitespace removed (the second half of `trim`). */
  function TrimEnd(s: string): (r: string)
    ensures |r| <= |s| && r == s[..|r|]
    ensures forall k :: |r| <= k < |s| ==> IsWhitespace(s[k])
    ensures r == [] || !IsWhitespace(r[|r| - 1])
  {
    if |s| > 0 && IsWhitespace(s[|s| - 1]) then TrimEnd(s[..|s| - 1]) else s
  }

  /** `String.prototype.trim`. */
  function Trim(s: string): (r: string)
    ensures exists i, j :: 0 <= i <= j <= |s| && r == s[i..j] && AllWhitespace(s[..i]) && AllWhitespace(s[j..])
    ensures r == [] || (!IsWhitespace(r[0]) && !IsWhitespace(r[|r| - 1]))
  {
    var t := TrimStart(s);
    SuffixThenPrefix(s, t, TrimEnd(t));
    TrimEnd(t)
  }

  /** A whitespace-led suffix `t` of `s`, then a whitespace-trailed prefix
      `r` of `t`: `r` is a window of `s` with whitespace on both sides. */
  lemma SuffixThenPrefix(s: string, t: string, r: string)
    requires |t| <= |s| && t == s[|s| - |t|..]
    requires forall k :: 0 <= k < |s| - |t| ==> IsWhitespace(s[k])
    requires |r| <= |t| && r == t[..|r|]
    requires forall k :: |r| <= k < |t| ==> IsWhitespace(t[k])
    ensures var i := |s| - |t|;
            && s[i..i + |r|] == r
            && AllWhitespace(s[..i])
            && AllWhitespace(s[i + |r|..])
  {
    var i := |s| - |t|;
    var j := i + |r|;
    assert s[i..j] == r by {
      assert s[i..j] == t[..|r|];
    }
    assert AllWhitespace(s[..i]) by {
      forall k | 0 <= k < i
        ensures IsWhitespace(s[..i][k])
      {
        assert s[..i][k] == s[k];
      }
    }
    assert AllWhitespace(s[j..]) by {
      forall k | 0 <= k < |s| - j
        ensures IsWhitespace(s[j..][k])
      {
        assert s[j..][k] == t[|r| + k];
      }
    }
  }

  predicate AllWhitespace(s: string)
  {
    forall k :: 0 <= k < |s| ==> IsWhitespace(s[k])
  }

  lemma {:induction false} TrimStartPadded(a: string, s: string)
    requires AllWhitespace(a)
    ensures TrimStart(a + s) == TrimStart(s)
    decreases |a|
  {
    if a == [] {
      assert a + s == s;
    } else {
      assert (a + s)[1..] == a[1..] + s;
      TrimStartPadded(a[1..], s);
    }
  }

  lemma {:induction false} TrimEndPadded(s: string, b: string)
    requires AllWhitespace(b)
    ensures TrimEnd(s + b) == TrimEnd(s)
    decreases |b|
  {
    if b == [] {
      assert s + b == s;
    } else {
      var t := b[..|b| - 1];
      assert (s + b)[..|s + b| - 1] == s + t;
      TrimEndPadded(s, t);
    }
  }

  lemma {:induction false} TrimStartAppend(s: string, b: string)
    ensures TrimStart(s + b) == if TrimStart(s) == [] then TrimStart(b) else TrimStart(s) + b
    decreases |s|
  {
    if s == [] {
      assert s + b == b;
    } else {
      assert (s + b)[1..] == s[1..] + b;
      if IsWhitespace(s[0]) {
        TrimStartAppend(s[1..], b);
      }
    }
  }

  /** Whitespace padding on either side does not change the trimmed text. */
  lemma TrimPadded(a: string, s: string, b: string)
    requires AllWhitespace(a) && AllWhitespace(b)
    ensures Trim(a + s + b) == Trim(s)
  {
    assert a + s + b == a + (s + b);
    TrimStartPadded(a, s + b);
    TrimStartAppend(s, b);
    if TrimStart(s) == [] {
      TrimStartPadded(b, []);
      assert b + [] == b;
    } else {
      TrimEndPadded(TrimStart(s), b);
    }
  }

  /** `h[i..]` begins with `n`. */
  predicate OccursAt(h: string, n: string, i: int)
  {
    0 <= i && i + |n| <= |h| && h[i..i + |n|] == n
  }

  /** `String.prototype.includes`: `n` occurs somewhere in `h`. */
  function Contains(h: string, n: string): (b: bool)
    ensures b <==> exists i :: OccursAt(h, n, i)
    decreases |h|
  {
    if |n| <= |h| && h[..|n|] == n then
      assert OccursAt(h, n, 0);
      true
    else if |h| == 0 then
      false
    else
      ContainsShift(h, n);
      Contains(h[1..], n)
  }

  lemma ContainsShift(h: string, n: string)
    requires |h| > 0 && !OccursAt(h, n, 0)
    ensures (exists i :: OccursAt(h, n, i)) <==> (exists i :: OccursAt(h[1..], n, i))
  {
    if exists i :: OccursAt(h, n, i) {
      var i :| OccursAt(h, n, i);
      assert h[1..][i - 1..i - 1 + |n|] == h[i..i + |n|];
      assert OccursAt(h[1..], n, i - 1);
    }
    if exists i :: OccursAt(h[1..], n, i) {
      var i :| OccursAt(h[1..], n, i);
      assert h[1..][i..i + |n|] == h[i + 1..i + 1 + |n|];
      assert OccursAt(h, n, i + 1);
    }
  }

  /** The empty string occurs in every string. */
  lemma ContainsEmpty(h: string)
    ensures Contains(h, "")
  {
    assert OccursAt(h, "", 0);
  }
}

=== FILE: current_sales.dfy ===
/** The current-sales page (scripts/script.js): the week banner and one
    card per sale record whose champion resolves in the catalog. */
module CurrentSales {
  import opened Records
  import opened Resolution
  import opened WeekWindow

  /** What the page shows: the week range and the cards, in order. */
  datatype CurrentPage = CurrentPage(week: Window, cards: seq<Card>)

  /** `renderSkins`: the week containing `now` counted from `epoch`, then
      the render loop over the sale feed. */
  method RenderSkins(catalog: Catalog, epoch: int, now: int, records: seq<SaleRecord>)
    returns (page: CurrentPage)
    ensures page.week == CurrentWeek(epoch, now)
    ensures CardsFor(catalog, records, page.cards)
  {
    var week := CurrentWeek(epoch, now);
    var cards := RenderCards(catalog, records);
    page := CurrentPage(week, cards);
  }
}

=== FILE: decimal.dfy ===
/** Decimal rendering of integers, as a template literal `${n}` prints an
    integral number of magnitude below 10^21 (larger ones print in
    exponent form), and the parse that inverts it. */
module Decimal {
  import opened Options

  predicate IsDigit(c: char) { '0' <= c <= '9' }

  predicate AllDigits(s: string)
  {
    forall k :: 0 <= k < |s| ==> IsDigit(s[k])
  }

  function DigitValue(c: char): (d: nat)
    requires IsDigit(c)
    ensures d < 10
  {
    c as int - '0' as int
  }

  function DigitChar(d: nat): (c: char)
    requires d < 10
    ensures IsDigit(c) && DigitValue(c) == d
  {
    ('0' as int + d) as char
  }

  /** Shortest decimal numeral of `n`: no sign, no leading zeros. */
  function NatToString(n: nat): (s: string)
    ensures |s| > 0 && AllDigits(s)
    ensures |s| > 1 ==> s[0] != '0'
    decreases n
  {
    if n < 10 then [DigitChar(n)] else NatToString(n / 10) + [DigitChar(n % 10)]
  }

  function ParseNat(s: string): nat
    requires AllDigits(s)
  {
    if s == [] then 0 else 10 * ParseNat(s[..|s| - 1]) + DigitValue(s[|s| - 1])
  }

  lemma {:induction false} ParseNatToString(n: nat)
    ensures ParseNat(NatToString(n)) == n
    decreases n
  {
    if n >= 10 {
      var s := NatToString(n / 10);
      assert (s + [DigitChar(n % 10)])[..|s|] == s;
      ParseNatToString(n / 10);
    }
  }

  /** `${n}` for an integral number `n` with `|n| < 10^21`. */
  function IntToString(n: int): (s: string)
    ensures IsCanonicalIntString(s)
    ensures s[0] == '-' <==> n < 0
  {
    if n < 0 then "-" + NatToString(-n) else NatToString(n)
  }

  /** An optional minus sign followed by at least one digit. */
  predicate IsIntString(s: string)
  {
    |s| > 0 && if s[0] == '-' then |s| > 1 && AllDigits(s[1..]) else AllDigits(s)
  }

  /** A digit string with no leading zero (a lone "0" is allowed). */
  predicate IsCanonicalNat(d: string)
  {
    |d| > 0 && AllDigits(d) && (|d| > 1 ==> d[0] != '0')
  }

  /** The text `${n}` prints: an optional minus sign, then digits with no
      leading zero; never "-0". */
  predicate IsCanonicalIntString(s: string)
  {
    |s| > 0 && if s[0] == '-' then IsCanonicalNat(s[1..]) && s[1..] != "0" else IsCanonicalNat(s)
  }

  function ParseInt(s: string): int
    requires IsIntString(s)
  {
    if s[0] == '-' then -(ParseNat(s[1..]) as int) else ParseNat(s)
  }

  /** Reading back the numeral gives the number printed. */
  lemma IntStringRoundTrip(n: int)
    ensures ParseInt(IntToString(n)) == n
  {
    if n < 0 {
      ParseNatToString(-n);
      assert ("-" + NatToString(-n))[1..] == NatToString(-n);
    } else {
      ParseNatToString(n);
    }
  }

  /** The text of a number holds only a minus sign and digits. */
  lemma IntStringChars(n: int)
    ensures forall k :: 0 <= k < |IntToString(n)| ==> IntToString(n)[k] == '-' || IsDigit(IntToString(n)[k])
  {
  }

  /** Digits that do not start with '0' read as a positive number. */
  lemma {:induction false} ParseNatPositive(d: string)
    requires |d| > 0 && AllDigits(d) && d[0] != '0'
    ensures ParseNat(d) >= 1
    decreases |d|
  {
    if |d| > 1 {
      ParseNatPositive(d[..|d| - 1]);
    }
  }

  /** The last digit and the rest of `10 * m + d`. */
  lemma DivModTen(m: nat, d: nat)
    requires d < 10
    ensures (10 * m + d) / 10 == m && (10 * m + d) % 10 == d
  {
  }

  /** A canonical digit string is the numeral of the number it reads as. */
  lemma {:induction false} NatToStringOfParse(d: string)
    requires IsCanonicalNat(d)
    ensures NatToString(ParseNat(d)) == d
    decreases |d|
  {
    var c := d[|d| - 1];
    assert DigitChar(DigitValue(c)) == c;
    if |d| > 1 {
      var p := d[..|d| - 1];
      assert p[0] == d[0];
      var m := ParseNat(p);
      var n := 10 * m + DigitValue(c);
      assert ParseNat(d) == n;
      ParseNatPositive(p);
      DivModTen(m, DigitValue(c));
      assert NatToString(n) == NatToString(m) + [DigitChar(DigitValue(c))];
      NatToStringOfParse(p);
      assert d == p + [c];
    }
  }

  /** Reading a canonical numeral and printing the number gives back the
      same text, so `${n}` is the only canonical spelling of `n`. */
  lemma CanonicalIntStringRoundTrip(s: string)
    requires IsCanonicalIntString(s)
    ensures IsIntString(s) && IntToString(ParseInt(s)) == s
  {
    if s[0] == '-' {
      var d := s[1..];
      assert d[0] != '0';
      ParseNatPositive(d);
      NatToStringOfParse(d);
      assert s == "-" + d;
    } else {
      NatToStringOfParse(s);
    }
  }

  /** Reads back what `${n}` prints: the number a canonical numeral spells,
      and nothing for any other text. */
  function ParseNumeral(s: string): (r: Option<int>)
    ensures r.Some? <==> IsCanonicalIntString(s)
    ensures r.Some? ==> IntToString(r.value) == s
  {
    if IsCanonicalIntString(s) then
      CanonicalIntStringRoundTrip(s);
      Some(ParseInt(s))
    else None
  }

  /** The numeral of every integer reads back as that integer. */
  lemma NumeralRoundTrip(n: int)
    ensures ParseNumeral(IntToString(n)) == Some(n)
  {
    IntStringRoundTrip(n);
  }

  /** `${n}` never pads with zeros and never prints "-0", so neither
      spelling reads back. */
  lemma NoPaddedNumerals()
    ensures ParseNumeral("00") == None && ParseNumeral("07") == None && ParseNumeral("-0") == None
  {
    assert "-0"[1..] == "0";
  }
}

=== FILE: legacy.dfy ===
/** The older current-sales page at the repository root (script.js): the
    champion key is derived from the display name by title-casing, each
    champion's data is fetched on its own, and splash URLs have no
    special cases. */
module Legacy {
  import opened Options
  import opened Seqs
  import opened Ascii
  import opened Records
  import Resolution
  import opened WeekWindow

  // ---------------------------------------------------------------------
  // formatChampionId

  /** `s.split(sep)`: the pieces between separators, empty ones included. */
  function Split(s: string, sep: char): (r: seq<string>)
    ensures |r| >= 1
    ensures forall k :: 0 <= k < |r| ==> sep !in r[k]
    ensures JoinWith(r, sep) == s
  {
    if s == [] then [""]
    else
      var t := Split(s[1..], sep);
      if s[0] == sep then
        assert [s[0]] + s[1..] == s;
        [""] + t
      else
        var r := [[s[0]] + t[0]] + t[1..];
        assert r[1..] == t[1..];
        assert s[0] != sep;
        if |t| == 1 then
          r
        else
          assert JoinWith(t, sep) == t[0] + [sep] + JoinWith(t[1..], sep);
          r
  }

  /** `pieces.join(sep)` for a separator character. */
  function JoinWith(pieces: seq<string>, sep: char): string
    requires |pieces| >= 1
  {
    if |pieces| == 1 then pieces[0] else pieces[0] + [sep] + JoinWith(pieces[1..], sep)
  }

  /** `word.charAt(0).toUpperCase() + word.slice(1)`. */
  function Capitalize(word: string): (r: string)
    ensures |r| == |word|
    ensures word != [] ==> r[0] == Upper(word[0])
    ensures forall k :: 0 < k < |word| ==> r[k] == word[k]
  {
    if word == [] then [] else [Upper(word[0])] + word[1..]
  }

  function CapitalizeAll(words: seq<string>): (r: seq<string>)
    ensures |r| == |words|
    ensures forall k :: 0 <= k < |words| ==> r[k] == Capitalize(words[k])
  {
    if words == [] then [] else [Capitalize(words[0])] + CapitalizeAll(words[1..])
  }

  /** `pieces.join("")`. */
  function Concat(pieces: seq<string>): string
  {
    if pieces == [] then [] else pieces[0] + Concat(pieces[1..])
  }

  /** Reference reading of title-casing, one character at a time: spaces
      vanish, a character right after the start or a space is upper-cased,
      every other character is lower-cased. */
  function TitleCase(s: string, atWordStart: bool): string
  {
    if s == [] then []
    else if s[0] == ' ' then TitleCase(s[1..], true)
    else [if atWordStart then Upper(s[0]) else Lower(s[0])] + TitleCase(s[1..], false)
  }

  function CountSpaces(s: string): nat
  {
    if s == [] then 0 else (if s[0] == ' ' then 1 else 0) + CountSpaces(s[1..])
  }

  /** `formatChampionId` ("Miss Fortune" to "MissFortune"): lower-case,
      split on spaces, capitalise each word, join. The result has no
      spaces, and one character for each non-space character of the
      input. */
  function FormatChampionId(name: string): (r: string)
    ensures ' ' !in r
    ensures |r| == |name| - CountSpaces(name)
    ensures r == TitleCase(name, true)
  {
    FormatIsTitleCase(name);
    TitleCaseShape(name, true);
    Concat(CapitalizeAll(Split(LowerStr(name), ' ')))
  }

  lemma {:induction false} WordsTitleCase(s: string, atWordStart: bool)
    ensures var w := Split(LowerStr(s), ' ');
            TitleCase(s, atWordStart)
              == (if atWordStart then Capitalize(w[0]) else w[0]) + Concat(CapitalizeAll(w[1..]))
    decreases |s|
  {
    if s != [] {
      var lowered := LowerStr(s);
      assert lowered[0] == Lower(s[0]);
      assert lowered[1..] == LowerStr(s[1..]);
      var t := Split(LowerStr(s[1..]), ' ');
      WordsTitleCase(s[1..], s[0] == ' ');
      if s[0] == ' ' {
        assert Split(lowered, ' ') == [""] + t;
        assert ([""] + t)[1..] == t;
        assert Concat(CapitalizeAll(t)) == Capitalize(t[0]) + Concat(CapitalizeAll(t[1..]));
      } else {
        assert Lower(s[0]) != ' ';
        var w := Split(lowered, ' ');
        assert w == [[Lower(s[0])] + t[0]] + t[1..];
        assert w[1..] == t[1..];
        UpperOfLower(s[0]);
      }
    }
  }

  lemma FormatIsTitleCase(name: string)
    ensures Concat(CapitalizeAll(Split(LowerStr(name), ' '))) == TitleCase(name, true)
  {
    WordsTitleCase(name, true);
    var w := Split(LowerStr(name), ' ');
    assert CapitalizeAll(w)[1..] == CapitalizeAll(w[1..]);
  }

  lemma {:induction false} TitleCaseShape(s: string, atWordStart: bool)
    ensures ' ' !in TitleCase(s, atWordStart)
    ensures |TitleCase(s, atWordStart)| == |s| - CountSpaces(s)
    decreases |s|
  {
    if s != [] {
      TitleCaseShape(s[1..], s[0] == ' ');
      TitleCaseShape(s[1..], true);
      TitleCaseShape(s[1..], false);
    }
  }

  lemma {:induction false} TitleCaseOfLower(s: string, atWordStart: bool)
    ensures TitleCase(LowerStr(s), atWordStart) == TitleCase(s, atWordStart)
    decreases |s|
  {
    if s != [] {
      assert LowerStr(s)[1..] == LowerStr(s[1..]);
      UpperOfLower(s[0]);
      TitleCaseOfLower(s[1..], true);
      TitleCaseOfLower(s[1..], false);
    }
  }

  /** The input's letter case does not matter. */
  lemma FormatIgnoresCase(name: string)
    ensures FormatChampionId(LowerStr(name)) == FormatChampionId(name)
  {
    TitleCaseOfLower(name, true);
  }

  lemma TitleCaseSin()
    ensures TitleCase("SIN", true) == "Sin"
  {
    assert TitleCase("N", false) == "n";
    assert TitleCase("IN", false) == "in";
  }

  lemma TitleCaseLeeSin()
    ensures TitleCase("Lee  SIN", true) == "LeeSin"
  {
    TitleCaseSin();
    assert TitleCase(" SIN", true) == "Sin";
    assert TitleCase("  SIN", false) == "Sin";
    assert TitleCase("e  SIN", false) == "eSin";
    assert TitleCase("ee  SIN", false) == "eeSin";
  }

  /** A doubled space leaves nothing behind and letter case is redone word
      by word: "Lee  SIN" becomes "LeeSin". */
  lemma FormatLeeSin()
    ensures FormatChampionId("Lee  SIN") == "LeeSin"
  {
    TitleCaseLeeSin();
  }

  // ---------------------------------------------------------------------
  // Skins and URLs

  /** `findSkinNumber(championData, skinName)`: the `num` of the first skin
      of the fetched champion whose trimmed, lower-cased name equals the
      trimmed, lower-cased query, and 0 when none does. */
  function FindSkinNumber(championData: Champion, skinName: string): (n: int)
    ensures forall i :: IsFirst(Resolution.SkinKeyFn(Resolution.SkinKey(skinName)), championData.skins, i) ==> n == championData.skins[i].num
    ensures Resolution.NoSkinMatches(championData.skins, skinName) ==> n == 0
  {
    Resolution.MatchSkin(championData.skins, skinName)
  }

  /** `buildSplashUrl` of this page: no special cases. */
  function BuildSplashUrl(champion: string, num: int): (url: string)
    ensures Resolution.ParseSplashUrl(url) == Some((champion, num))
  {
    Resolution.SplashUrlRoundTrip(champion, num);
    Resolution.SplashUrlFor(champion, num)
  }

  /** The built URL is the only text that parses back to its key and
      number. */
  lemma BuildSplashUrlExact(champion: string, num: int, u: string)
    requires Resolution.ParseSplashUrl(u) == Some((champion, num))
    ensures u == BuildSplashUrl(champion, num)
  {
    Resolution.SplashUrlUnique(u, champion, num);
  }

  // ---------------------------------------------------------------------
  // The render loop

  /** The champion data the per-champion fetch returns, by key; a key
      missing here is a fetch that failed or returned no such champion. */
  type FetchedData = map<string, Champion>

  /** One loop iteration: format the key, look up the fetched data (a miss
      throws and is caught, so no card), match the skin, build the URL. */
  function CardFor(fetched: FetchedData, rec: SaleRecord): (r: Option<Resolution.Card>)
    ensures r.Some? <==> FormatChampionId(rec.champion) in fetched
    ensures r.Some? ==> r.value.record == rec
  {
    var champId := FormatChampionId(rec.champion);
    if champId !in fetched then None
    else
      var skinNum := FindSkinNumber(fetched[champId], rec.skin);
      Some(Resolution.Card(rec, champId, skinNum, BuildSplashUrl(champId, skinNum)))
  }

  predicate Fetched(fetched: FetchedData, rec: SaleRecord)
  {
    FormatChampionId(rec.champion) in fetched
  }

  function FetchedFn(fetched: FetchedData): SaleRecord -> bool
  {
    rec => Fetched(fetched, rec)
  }

  predicate IsCardFor(fetched: FetchedData, card: Resolution.Card)
  {
    CardFor(fetched, card.record) == Some(card)
  }

  /** A card of this page names the formatted key, whose data was fetched,
      the skin number matched in that data, and a URL filed under that key
      and number. */
  lemma CardShows(fetched: FetchedData, card: Resolution.Card)
    requires IsCardFor(fetched, card)
    ensures card.championId == FormatChampionId(card.record.champion)
    ensures card.championId in fetched
    ensures card.skinNum == FindSkinNumber(fetched[card.championId], card.record.skin)
    ensures Resolution.ParseSplashUrl(card.splashUrl) == Some((card.championId, card.skinNum))
  {
  }

  /** One iteration of the render loop keeps both loop facts: the next
      record is skipped exactly when its data was not fetched, and a card
      that is added agrees with the fetched data. */
  lemma RenderStep(fetched: FetchedData, records: seq<SaleRecord>, i: nat, cards: seq<Resolution.Card>)
    requires i < |records|
    requires Resolution.CardRecords(cards) == Filter(FetchedFn(fetched), records[..i])
    requires forall k :: 0 <= k < |cards| ==> IsCardFor(fetched, cards[k])
    ensures CardFor(fetched, records[i]).None? ==>
      Resolution.CardRecords(cards) == Filter(FetchedFn(fetched), records[..i + 1])
    ensures CardFor(fetched, records[i]).Some? ==>
      var next := cards + [CardFor(fetched, records[i]).value];
      && Resolution.CardRecords(next) == Filter(FetchedFn(fetched), records[..i + 1])
      && forall k :: 0 <= k < |next| ==> IsCardFor(fetched, next[k])
  {
    var card := CardFor(fetched, records[i]);
    if card.None? {
      Resolution.CardsStep(FetchedFn(fetched), records, i, cards, []);
      assert cards + [] == cards;
    } else {
      Resolution.CardsStep(FetchedFn(fetched), records, i, cards, [card.value]);
      assert IsCardFor(fetched, card.value);
    }
  }

  /** `cards` shows exactly the records whose champion data was fetched,
      in their order, each card agreeing with that data. */
  predicate CardsFor(fetched: FetchedData, records: seq<SaleRecord>, cards: seq<Resolution.Card>)
  {
    && Resolution.CardRecords(cards) == Filter(FetchedFn(fetched), records)
    && forall k :: 0 <= k < |cards| ==> IsCardFor(fetched, cards[k])
  }

  /** The loop of the root page's `renderSkins`: a record whose data cannot
      be had is skipped and the loop carries on. */
  method RenderCards(fetched: FetchedData, records: seq<SaleRecord>) returns (cards: seq<Resolution.Card>)
    ensures CardsFor(fetched, records, cards)
  {
    cards := [];
    var i := 0;
    while i < |records|
      invariant 0 <= i <= |records|
      invariant Resolution.CardRecords(cards) == Filter(FetchedFn(fetched), records[..i])
      invariant forall k :: 0 <= k < |cards| ==> IsCardFor(fetched, cards[k])
    {
      var card := CardFor(fetched, records[i]);
      RenderStep(fetched, records, i, cards);
      if card.Some? {
        cards := cards + [card.value];
      }
      i := i + 1;
    }
    assert records[..i] == records;
  }

  /** What the page shows: the week range and the cards, in order. */
  datatype LegacyPage = LegacyPage(week: Window, cards: seq<Resolution.Card>)

  /** `renderSkins` of the root page: the week banner, then the cards. */
  method RenderSkins(fetched: FetchedData, epoch: int, now: int, records: seq<SaleRecord>)
    returns (page: LegacyPage)
    ensures page.week == CurrentWeek(epoch, now)
    ensures CardsFor(fetched, records, page.cards)
  {
    var week := CurrentWeek(epoch, now);
    var cards := RenderCards(fetched, records);
    page := LegacyPage(week, cards);
  }
}

=== FILE: mythic.dfy ===
/** The mythic-shop page (scripts/mythic-skins.js): the feed is split into
    "featured" and "biweekly" sections, each rendered with the shared card
    loop, and a patch label is shown above them. */
module Mythic {
  import opened Options
  import opened Seqs
  import opened Ascii
  import opened Records
  import opened Resolution

  /** The Data Dragon version the page pins; also the label's fallback. */
  const PatchVersion: string := "15.24.1"

  const LabelPrefix: string := "Current Patch: "

  /** `s.category?.toLowerCase() === name`: a missing category matches
      nothing. */
  predicate InCategory(rec: SaleRecord, name: string)
  {
    rec.category.Some? && LowerStr(rec.category.value) == name
  }

  function CategoryFn(name: string): SaleRecord -> bool
  {
    rec => InCategory(rec, name)
  }

  predicate IsFeatured(rec: SaleRecord) { InCategory(rec, "featured") }

  predicate IsBiweekly(rec: SaleRecord) { InCategory(rec, "biweekly") }

  /** The two `skinData.filter(...)` calls of `renderSkins`. */
  function SplitCategories(records: seq<SaleRecord>): (r: (seq<SaleRecord>, seq<SaleRecord>))
    ensures IsSubsequence(r.0, records) && IsSubsequence(r.1, records)
    ensures forall k :: 0 <= k < |r.0| ==> IsFeatured(r.0[k])
    ensures forall k :: 0 <= k < |r.1| ==> IsBiweekly(r.1[k])
    ensures forall k :: 0 <= k < |records| && IsFeatured(records[k]) ==> records[k] in r.0
    ensures forall k :: 0 <= k < |records| && IsBiweekly(records[k]) ==> records[k] in r.1
    ensures |r.0| == Count(CategoryFn("featured"), records)
    ensures |r.1| == Count(CategoryFn("biweekly"), records)
    ensures forall x :: x in r.0 ==> x !in r.1
    ensures forall k :: 0 <= k < |records| && !IsFeatured(records[k]) && !IsBiweekly(records[k])
              ==> records[k] !in r.0 && records[k] !in r.1
  {
    var featured := Filter(CategoryFn("featured"), records);
    var biweekly := Filter(CategoryFn("biweekly"), records);
    assert forall k :: 0 <= k < |featured| ==> IsFeatured(featured[k]);
    assert forall k :: 0 <= k < |biweekly| ==> IsBiweekly(biweekly[k]);
    (featured, biweekly)
  }

  /** A record without a category, or with one that is neither value once
      lower-cased, is shown in no section. */
  lemma UncategorisedHidden(records: seq<SaleRecord>, k: nat)
    requires k < |records|
    requires records[k].category.None?
      || (LowerStr(records[k].category.value) != "featured" && LowerStr(records[k].category.value) != "biweekly")
    ensures records[k] !in SplitCategories(records).0 && records[k] !in SplitCategories(records).1
  {
  }

  /** The patch text: set only for a non-empty feed, from the first
      record's `patch`, falling back to the pinned version when that is
      missing or empty (`skinData[0].patch || patchVersion`). */
  function PatchLabel(records: seq<SaleRecord>): (shown: Option<string>)
    ensures shown.None? <==> records == []
    ensures shown.Some? ==> |shown.value| > |LabelPrefix| && shown.value[..|LabelPrefix|] == LabelPrefix
    ensures shown.Some? && records[0].patch.Some? && records[0].patch.value != "" ==>
              shown.value[|LabelPrefix|..] == records[0].patch.value
    ensures shown.Some? && (records[0].patch.None? || records[0].patch.value == "") ==>
              shown.value[|LabelPrefix|..] == PatchVersion
  {
    if records == [] then None
    else
      var patch := if records[0].patch.Some? && records[0].patch.value != "" then records[0].patch.value else PatchVersion;
      assert (LabelPrefix + patch)[|LabelPrefix|..] == patch;
      Some(LabelPrefix + patch)
  }

  /** What the page shows. */
  datatype MythicPage = MythicPage(patchLabel: Option<string>, featured: seq<Card>, biweekly: seq<Card>)

  /** `renderSkins`: split the feed, set the label, then `renderCategory`
      (the shared card loop) on each section, featured first. */
  method RenderSkins(catalog: Catalog, records: seq<SaleRecord>) returns (page: MythicPage)
    ensures page.patchLabel == PatchLabel(records)
    ensures CardsFor(catalog, SplitCategories(records).0, page.featured)
    ensures CardsFor(catalog, SplitCategories(records).1, page.biweekly)
  {
    var split := SplitCategories(records);
    var patchText := PatchLabel(records);
    var featured := RenderCategory(catalog, split.0);
    var biweekly := RenderCategory(catalog, split.1);
    page := MythicPage(patchText, featured, biweekly);
  }

  /** `renderCategory`: the shared card loop over one section; unresolved
      champions are skipped silently. */
  method RenderCategory(catalog: Catalog, section: seq<SaleRecord>) returns (cards: seq<Card>)
    ensures CardsFor(catalog, section, cards)
  {
    cards := RenderCards(catalog, section);
  }

  /** A section's cards come from that section's records of the feed, in
      feed order, and each card's record carries that category. */
  lemma SectionCardsInCategory(catalog: Catalog, records: seq<SaleRecord>, name: string, cards: seq<Card>)
    requires CardsFor(catalog, Filter(CategoryFn(name), records), cards)
    ensures forall k :: 0 <= k < |cards| ==> InCategory(cards[k].record, name)
    ensures IsSubsequence(CardRecords(cards), records)
  {
    var section := Filter(CategoryFn(name), records);
    var shown := CardRecords(cards);
    SubsequenceTransitive(shown, section, records);
    SubsequenceMembers(shown, section);
    forall k | 0 <= k < |cards|
      ensures InCategory(cards[k].record, name)
    {
      assert shown[k] == cards[k].record;
      var j :| 0 <= j < |section| && section[j] == shown[k];
      assert CategoryFn(name)(section[j]);
    }
  }
}

=== FILE: past_sales.dfy ===
/** The past-sales page (scripts/past-sales.js): a search-and-week filter
    over the historical feed, a table showing 30 rows per page, and the
    page buttons with "..." where pages are skipped. */
module PastSales {
  import opened Options
  import opened Seqs
  import opened Ascii
  import opened Records

  // ---------------------------------------------------------------------
  // Filtering

  /** The lower-cased champion or skin name contains the lower-cased query. */
  predicate MatchesSearch(rec: SaleRecord, query: string)
  {
    Contains(LowerStr(rec.champion), LowerStr(query)) || Contains(LowerStr(rec.skin), LowerStr(query))
  }

  /** No week chosen (`!week` for the empty option), or exactly that week. */
  predicate MatchesWeek(rec: SaleRecord, week: string)
  {
    week == "" || rec.week == Some(week)
  }

  predicate Keep(rec: SaleRecord, query: string, week: string)
  {
    MatchesSearch(rec, query) && MatchesWeek(rec, week)
  }

  function KeepFn(query: string, week: string): SaleRecord -> bool
  {
    rec => Keep(rec, query, week)
  }

  /** `filterSkins`: the records kept by both criteria, in their order. */
  function FilterSkins(skins: seq<SaleRecord>, query: string, week: string): (r: seq<SaleRecord>)
    ensures IsSubsequence(r, skins)
    ensures forall k :: 0 <= k < |r| ==> MatchesSearch(r[k], query) && MatchesWeek(r[k], week)
    ensures forall k :: 0 <= k < |skins| && MatchesSearch(skins[k], query) && MatchesWeek(skins[k], week)
              ==> skins[k] in r
    ensures |r| == Count(KeepFn(query, week), skins)
  {
    var r := Filter(KeepFn(query, week), skins);
    assert forall k :: 0 <= k < |r| ==> KeepFn(query, week)(r[k]);
    r
  }

  /** With an empty query and no week every record is kept, in order. */
  lemma FilterSkinsNoCriteria(skins: seq<SaleRecord>)
    ensures FilterSkins(skins, "", "") == skins
  {
    forall k | 0 <= k < |skins|
      ensures KeepFn("", "")(skins[k])
    {
      ContainsEmpty(LowerStr(skins[k].champion));
    }
    FilterAll(KeepFn("", ""), skins);
  }

  // ---------------------------------------------------------------------
  // Paging

  const RowsPerPage: int := 30

  function Min(a: int, b: int): int { if a <= b then a else b }

  function Max(a: int, b: int): int { if a >= b then a else b }

  /** How `Array.prototype.slice` reads an index: negative counts from the
      end, and the result is clamped to `[0, len]`. */
  function SliceIndex(i: int, len: nat): (r: nat)
    ensures r <= len
    ensures 0 <= i <= len ==> r == i
    ensures i < 0 ==> r == Max(len + i, 0)
    ensures i > len ==> r == len
  {
    if i < 0 then Max(len + i, 0) else Min(i, len)
  }

  /** `s.slice(start, end)`: the elements from the read start index up to
      the read end index, and none when the end does not lie past the start. */
  function JsSlice<T>(s: seq<T>, start: int, end: int): (r: seq<T>)
    ensures |r| == Max(SliceIndex(end, |s|) - SliceIndex(start, |s|), 0)
    ensures forall k :: 0 <= k < |r| ==> r[k] == s[SliceIndex(start, |s|) + k]
  {
    var a := SliceIndex(start, |s|);
    var b := SliceIndex(end, |s|);
    if a < b then s[a..b] else []
  }

  /** The rows `renderTableRows` shows for `page`. */
  function PageRows(skins: seq<SaleRecord>, page: int): (r: seq<SaleRecord>)
    ensures |r| <= RowsPerPage
    ensures page >= 1 ==> r == skins[Min(|skins|, (page - 1) * RowsPerPage)..Min(|skins|, page * RowsPerPage)]
  {
    var start := (page - 1) * RowsPerPage;
    JsSlice(skins, start, start + RowsPerPage)
  }

  /** Page `p` shows `skins[(p-1)*30 .. min(n, p*30))`: at most 30 rows,
      and none once `(p-1)*30` reaches the end. */
  lemma PageRowsWindow(skins: seq<SaleRecord>, page: int)
    requires page >= 1
    ensures |PageRows(skins, page)| <= RowsPerPage
    ensures (page - 1) * RowsPerPage >= |skins| ==> PageRows(skins, page) == []
    ensures (page - 1) * RowsPerPage < |skins| ==>
              PageRows(skins, page) == skins[(page - 1) * RowsPerPage..Min(|skins|, page * RowsPerPage)]
  {
  }

  /** `Math.ceil(n / 30)`. */
  function TotalPages(n: nat): (r: nat)
    ensures r * RowsPerPage >= n
    ensures r > 0 ==> (r - 1) * RowsPerPage < n
  {
    (n + RowsPerPage - 1) / RowsPerPage
  }

  /** Pages 1 to `k` laid end to end. */
  function PagesUpTo(skins: seq<SaleRecord>, k: nat): seq<SaleRecord>
  {
    if k == 0 then [] else PagesUpTo(skins, k - 1) + PageRows(skins, k)
  }

  lemma {:induction false} PagesUpToPrefix(skins: seq<SaleRecord>, k: nat)
    ensures PagesUpTo(skins, k) == skins[..Min(|skins|, k * RowsPerPage)]
  {
    if k > 0 {
      PagesUpToPrefix(skins, k - 1);
      PageRowsWindow(skins, k);
      var a := Min(|skins|, (k - 1) * RowsPerPage);
      var b := Min(|skins|, k * RowsPerPage);
      if (k - 1) * RowsPerPage < |skins| {
        assert skins[..a] + skins[a..b] == skins[..b];
      } else {
        assert a == b;
      }
    }
  }

  /** Reading every page in turn reproduces the whole filtered list. */
  lemma AllPagesReassemble(skins: seq<SaleRecord>)
    ensures PagesUpTo(skins, TotalPages(|skins|)) == skins
  {
    PagesUpToPrefix(skins, TotalPages(|skins|));
    assert skins[..|skins|] == skins;
  }

  // ---------------------------------------------------------------------
  // Page buttons

  /** One pagination control: a page button (marked when it is the current
      page) or a "..." gap. */
  datatype Control = PageButton(page: int, active: bool) | Ellipsis

  /** The buttons `start..end` of the loop `for (i = start; i <= end; i++)`. */
  function ButtonRun(lo: int, hi: int, current: int): (r: seq<Control>)
    ensures |r| == if lo <= hi then hi - lo + 1 else 0
    ensures forall k :: 0 <= k < |r| ==> r[k] == PageButton(lo + k, lo + k == current)
    decreases if lo <= hi then hi - lo + 1 else 0
  {
    if lo > hi then [] else [PageButton(lo, lo == current)] + ButtonRun(lo + 1, hi, current)
  }

  /** `renderPaginationControls`: nothing for at most one page; otherwise
      button 1, "..." when the current page is past 4, the buttons from
      `max(2, cur-2)` to `min(total-1, cur+2)`, "..." when the current page
      is before `total-3`, and the last page's button. */
  function Controls(totalPages: int, current: int): (r: seq<Control>)
    ensures totalPages <= 1 ==> r == []
    ensures totalPages > 1 ==> |r| >= 2 && r[0] == PageButton(1, current == 1)
                               && r[|r| - 1] == PageButton(totalPages, current == totalPages)
  {
    if totalPages <= 1 then []
    else
      [PageButton(1, 1 == current)]
      + (if current > 4 then [Ellipsis] else [])
      + ButtonRun(Max(2, current - 2), Min(totalPages - 1, current + 2), current)
      + (if current < totalPages - 3 then [Ellipsis] else [])
      + (if totalPages > 1 then [PageButton(totalPages, totalPages == current)] else [])
  }

  /** Controls start and end with a button; consecutive buttons are
      consecutive pages; and a "..." stands exactly between two buttons
      whose pages are not consecutive. */
  ghost predicate WellSpaced(r: seq<Control>)
  {
    && |r| > 0 && r[0].PageButton? && r[|r| - 1].PageButton?
    && (forall k :: 0 <= k < |r| - 1 && r[k].PageButton? && r[k + 1].PageButton? ==>
          r[k + 1].page == r[k].page + 1)
    && (forall k :: 0 <= k < |r| && r[k].Ellipsis? ==>
          0 < k < |r| - 1 && r[k - 1].PageButton? && r[k + 1].PageButton? && r[k + 1].page > r[k - 1].page + 1)
  }

  /** Page numbers of the buttons in `r`. */
  function ButtonPages(r: seq<Control>): set<int>
  {
    set k | 0 <= k < |r| && r[k].PageButton? :: r[k].page
  }

  /** Exactly the button for `current` is marked. */
  ghost predicate MarksCurrent(r: seq<Control>, current: int)
  {
    forall k :: 0 <= k < |r| && r[k].PageButton? ==> (r[k].active <==> r[k].page == current)
  }

  lemma WellSpacedJoin(x: seq<Control>, y: seq<Control>)
    requires WellSpaced(x) && WellSpaced(y)
    requires y[0].page == x[|x| - 1].page + 1
    ensures WellSpaced(x + y)
  {
    var r := x + y;
    forall k | 0 <= k < |r| - 1 && r[k].PageButton? && r[k + 1].PageButton?
      ensures r[k + 1].page == r[k].page + 1
    {
      if k < |x| - 1 {
        assert r[k] == x[k] && r[k + 1] == x[k + 1];
      } else if k >= |x| {
        assert r[k] == y[k - |x|] && r[k + 1] == y[k + 1 - |x|];
      }
    }
    forall k | 0 <= k < |r| && r[k].Ellipsis?
      ensures 0 < k < |r| - 1 && r[k - 1].PageButton? && r[k + 1].PageButton? && r[k + 1].page > r[k - 1].page + 1
    {
      if k < |x| {
        assert r[k] == x[k] && r[k - 1] == x[k - 1] && r[k + 1] == x[k + 1];
      } else {
        assert r[k] == y[k - |x|] && r[k - 1] == y[k - 1 - |x|] && r[k + 1] == y[k + 1 - |x|];
      }
    }
  }

  lemma WellSpacedGap(x: seq<Control>, y: seq<Control>)
    requires WellSpaced(x) && WellSpaced(y)
    requires y[0].page > x[|x| - 1].page + 1
    ensures WellSpaced(x + [Ellipsis] + y)
  {
    var r := x + [Ellipsis] + y;
    var n := |x|;
    assert r[n] == Ellipsis;
    forall k | 0 <= k < |r| - 1 && r[k].PageButton? && r[k + 1].PageButton?
      ensures r[k + 1].page == r[k].page + 1
    {
      if k < n - 1 {
        assert r[k] == x[k] && r[k + 1] == x[k + 1];
      } else if k > n {
        assert r[k] == y[k - n - 1] && r[k + 1] == y[k - n];
      }
    }
    forall k | 0 <= k < |r| && r[k].Ellipsis?
      ensures 0 < k < |r| - 1 && r[k - 1].PageButton? && r[k + 1].PageButton? && r[k + 1].page > r[k - 1].page + 1
    {
      if k < n {
        assert r[k] == x[k] && r[k - 1] == x[k - 1] && r[k + 1] == x[k + 1];
      } else if k > n {
        assert r[k] == y[k - n - 1] && r[k - 1] == y[k - n - 2] && r[k + 1] == y[k - n];
      } else {
        assert r[k - 1] == x[n - 1] && r[k + 1] == y[0];
      }
    }
  }

  lemma ButtonPagesAppend(x: seq<Control>, y: seq<Control>)
    ensures ButtonPages(x + y) == ButtonPages(x) + ButtonPages(y)
  {
    var r := x + y;
    forall p | p in ButtonPages(r)
      ensures p in ButtonPages(x) + ButtonPages(y)
    {
      var k :| 0 <= k < |r| && r[k].PageButton? && r[k].page == p;
      if k < |x| {
        assert x[k] == r[k];
      } else {
        assert y[k - |x|] == r[k];
      }
    }
    forall p | p in ButtonPages(x) + ButtonPages(y)
      ensures p in ButtonPages(r)
    {
      if p in ButtonPages(x) {
        var k :| 0 <= k < |x| && x[k].PageButton? && x[k].page == p;
        assert r[k] == x[k];
      } else {
        var k :| 0 <= k < |y| && y[k].PageButton? && y[k].page == p;
        assert r[k + |x|] == y[k];
      }
    }
  }

  lemma ButtonRunFacts(lo: int, hi: int, current: int)
    ensures lo <= hi ==> WellSpaced(ButtonRun(lo, hi, current))
    ensures forall p :: p in ButtonPages(ButtonRun(lo, hi, current)) <==> lo <= p <= hi
    ensures MarksCurrent(ButtonRun(lo, hi, current), current)
  {
    var r := ButtonRun(lo, hi, current);
    forall p | lo <= p <= hi
      ensures p in ButtonPages(r)
    {
      assert r[p - lo].page == p;
    }
  }

  /** The pieces `Controls` is made of, in order. */
  lemma ControlsPieces(totalPages: int, current: int)
    requires totalPages > 1
    ensures Controls(totalPages, current)
      == [PageButton(1, 1 == current)]
         + (if current > 4 then [Ellipsis] else [])
         + ButtonRun(Max(2, current - 2), Min(totalPages - 1, current + 2), current)
         + (if current < totalPages - 3 then [Ellipsis] else [])
         + [PageButton(totalPages, totalPages == current)]
  {
  }

  /** Two well-spaced runs glued directly (consecutive pages) or through
      one "..." (skipped pages) stay well spaced. */
  lemma WellSpacedLink(x: seq<Control>, mid: seq<Control>, y: seq<Control>)
    requires WellSpaced(x) && WellSpaced(y)
    requires mid == [] ==> y[0].page == x[|x| - 1].page + 1
    requires mid != [] ==> mid == [Ellipsis] && y[0].page > x[|x| - 1].page + 1
    ensures WellSpaced(x + mid + y)
    ensures (x + mid + y)[|x + mid + y| - 1] == y[|y| - 1]
  {
    if mid == [] {
      assert x + mid + y == x + y;
      WellSpacedJoin(x, y);
    } else {
      WellSpacedGap(x, y);
    }
  }

  /** Button 1, an optional "...", the middle run, an optional "...", and
      the last button form well-spaced controls when each gap is marked. */
  lemma AssembleSpacing(first: seq<Control>, left: seq<Control>, run: seq<Control>,
                        right: seq<Control>, last: seq<Control>)
    requires |first| == 1 && first[0].PageButton? && |last| == 1 && last[0].PageButton?
    requires run != [] ==> WellSpaced(run)
    requires left == [] || left == [Ellipsis]
    requires right == [] || right == [Ellipsis]
    requires run != [] && left == [] ==> run[0].page == first[0].page + 1
    requires run != [] && left != [] ==> run[0].page > first[0].page + 1
    requires run != [] && right == [] ==> last[0].page == run[|run| - 1].page + 1
    requires run != [] && right != [] ==> last[0].page > run[|run| - 1].page + 1
    requires run == [] ==> left == [] && right == [] && last[0].page == first[0].page + 1
    ensures WellSpaced(first + left + run + right + last)
  {
    if run == [] {
      assert first + left + run + right + last == first + [] + last;
      WellSpacedLink(first, [], last);
    } else {
      WellSpacedLink(first, left, run);
      WellSpacedLink(first + left + run, right, last);
    }
  }

  /** For a current page within range the controls are well spaced: a
      "..." appears exactly where page numbers are skipped. */
  lemma ControlsSpacing(totalPages: int, current: int)
    requires 1 <= current <= totalPages && totalPages > 1
    ensures WellSpaced(Controls(totalPages, current))
  {
    var lo := Max(2, current - 2);
    var hi := Min(totalPages - 1, current + 2);
    var run := ButtonRun(lo, hi, current);
    ControlsPieces(totalPages, current);
    ButtonRunFacts(lo, hi, current);
    AssembleSpacing([PageButton(1, 1 == current)],
                    if current > 4 then [Ellipsis] else [],
                    run,
                    if current < totalPages - 3 then [Ellipsis] else [],
                    [PageButton(totalPages, totalPages == current)]);
  }

  /** For a current page within range the buttons shown are exactly the
      first page, the last page and the pages within two of the current
      one. */
  lemma ControlsPages(totalPages: int, current: int)
    requires 1 <= current <= totalPages && totalPages > 1
    ensures forall p :: p in ButtonPages(Controls(totalPages, current)) <==>
              (1 <= p <= totalPages && (p == 1 || p == totalPages || current - 2 <= p <= current + 2))
  {
    var lo := Max(2, current - 2);
    var hi := Min(totalPages - 1, current + 2);
    var run := ButtonRun(lo, hi, current);
    ControlsPieces(totalPages, current);
    ButtonRunFacts(lo, hi, current);
    AssemblePages([PageButton(1, 1 == current)],
                  if current > 4 then [Ellipsis] else [],
                  run,
                  if current < totalPages - 3 then [Ellipsis] else [],
                  [PageButton(totalPages, totalPages == current)]);
  }

  /** "..." entries contribute no pages. */
  lemma AssemblePages(first: seq<Control>, left: seq<Control>, run: seq<Control>,
                      right: seq<Control>, last: seq<Control>)
    requires |first| == 1 && first[0].PageButton? && |last| == 1 && last[0].PageButton?
    requires left == [] || left == [Ellipsis]
    requires right == [] || right == [Ellipsis]
    ensures ButtonPages(first + left + run + right + last)
         == {first[0].page} + ButtonPages(run) + {last[0].page}
  {
    ButtonPagesAppend(first + left + run + right, last);
    ButtonPagesAppend(first + left + run, right);
    ButtonPagesAppend(first + left, run);
    ButtonPagesAppend(first, left);
    assert ButtonPages(first) == {first[0].page};
    assert ButtonPages(last) == {last[0].page};
    assert ButtonPages(left) == {} && ButtonPages(right) == {};
  }

  /** Exactly the current page's button is marked active. */
  lemma ControlsMarkCurrent(totalPages: int, current: int)
    ensures MarksCurrent(Controls(totalPages, current), current)
  {
    if totalPages > 1 {
      var lo := Max(2, current - 2);
      var hi := Min(totalPages - 1, current + 2);
      var first := [PageButton(1, 1 == current)];
      var left: seq<Control> := if current > 4 then [Ellipsis] else [];
      var run := ButtonRun(lo, hi, current);
      var r := Controls(totalPages, current);
      ControlsPieces(totalPages, current);
      forall k | 0 <= k < |r| && r[k].PageButton?
        ensures r[k].active <==> r[k].page == current
      {
        var m := |first + left|;
        if m <= k < m + |run| {
          assert r[k] == run[k - m];
        }
      }
    }
  }

  /** Page numbers along well-spaced controls strictly increase. */
  lemma {:induction false} WellSpacedIncreasing(r: seq<Control>, i: int, j: int)
    requires WellSpaced(r)
    requires 0 <= i < j < |r| && r[i].PageButton? && r[j].PageButton?
    ensures r[i].page < r[j].page
    decreases j - i
  {
    var prev := if r[j - 1].PageButton? then j - 1 else j - 2;
    assert r[prev].PageButton? && r[prev].page < r[j].page;
    if i < prev {
      WellSpacedIncreasing(r, i, prev);
    }
  }

  /** For a current page within range the buttons are strictly increasing,
      lie within `[1, totalPages]`, and include the current page. */
  lemma ControlsButtons(totalPages: int, current: int)
    requires 1 <= current <= totalPages && totalPages > 1
    ensures forall i, j :: 0 <= i < j < |Controls(totalPages, current)|
              && Controls(totalPages, current)[i].PageButton? && Controls(totalPages, current)[j].PageButton?
              ==> Controls(totalPages, current)[i].page < Controls(totalPages, current)[j].page
    ensures forall k :: 0 <= k < |Controls(totalPages, current)| && Controls(totalPages, current)[k].PageButton?
              ==> 1 <= Controls(totalPages, current)[k].page <= totalPages
    ensures current in ButtonPages(Controls(totalPages, current))
  {
    var r := Controls(totalPages, current);
    ControlsSpacing(totalPages, current);
    ControlsPages(totalPages, current);
    forall i, j | 0 <= i < j < |r| && r[i].PageButton? && r[j].PageButton?
      ensures r[i].page < r[j].page
    {
      WellSpacedIncreasing(r, i, j);
    }
    forall k | 0 <= k < |r| && r[k].PageButton?
      ensures 1 <= r[k].page <= totalPages
    {
      assert r[k].page in ButtonPages(r);
    }
  }

  /** Ten pages with page 6 current: 1 … 4 5 6 7 8 … 10. */
  lemma ControlsTenPagesAtSix()
    ensures Controls(10, 6) == [PageButton(1, false), Ellipsis, PageButton(4, false), PageButton(5, false),
                                PageButton(6, true), PageButton(7, false), PageButton(8, false), Ellipsis,
                                PageButton(10, false)]
  {
    var run := ButtonRun(4, 8, 6);
    assert run == [PageButton(4, false), PageButton(5, false), PageButton(6, true), PageButton(7, false), PageButton(8, false)];
  }

  // ---------------------------------------------------------------------
  // Page state

  /** The page's state: the whole feed, `currentPage`, and
      `currentFilteredSkins` (the last list rendered). */
  datatype TableState = TableState(skins: seq<SaleRecord>, currentPage: int, filtered: seq<SaleRecord>)

  /** What is on screen: the rows and the pagination controls. */
  datatype TableView = TableView(rows: seq<SaleRecord>, controls: seq<Control>)

  /** `renderTableRows(list, page)` with the global `currentPage`. */
  function RenderTable(list: seq<SaleRecord>, page: int, currentPage: int): (r: TableView)
    ensures |r.rows| <= RowsPerPage
    ensures page >= 1 ==> r.rows == list[Min(|list|, (page - 1) * RowsPerPage)..Min(|list|, page * RowsPerPage)]
    ensures |list| <= RowsPerPage ==> r.controls == []
    ensures |list| > RowsPerPage ==>
      && |r.controls| >= 2
      && r.controls[0] == PageButton(1, currentPage == 1)
      && r.controls[|r.controls| - 1] == PageButton(TotalPages(|list|), currentPage == TotalPages(|list|))
  {
    TableView(PageRows(list, page), Controls(TotalPages(|list|), currentPage))
  }

  /** Page load: an empty table on page 1. */
  function Init(skins: seq<SaleRecord>): (r: (TableState, TableView))
    ensures r.0.skins == skins && r.0.currentPage == 1 && r.0.filtered == []
    ensures r.1 == TableView([], [])
  {
    (TableState(skins, 1, []), RenderTable([], 1, 1))
  }

  /** `applyFilters`: trim the search text, filter the whole feed, go back
      to page 1 and render it. */
  function ApplyFilters(st: TableState, input: string, week: string): (r: (TableState, TableView))
    ensures r.0.skins == st.skins
    ensures r.0.filtered == FilterSkins(st.skins, Trim(input), week)
    ensures r.0.currentPage == 1
    ensures r.1.rows == r.0.filtered[..Min(|r.0.filtered|, RowsPerPage)]
    ensures r.1.controls == Controls(TotalPages(|r.0.filtered|), 1)
  {
    var filtered := FilterSkins(st.skins, Trim(input), week);
    var view := RenderTable(filtered, 1, 1);
    assert view.rows == filtered[..Min(|filtered|, RowsPerPage)];
    (TableState(st.skins, 1, filtered), view)
  }

  /** A page button's click: make it current and re-render the stored list
      without filtering again. */
  function ClickPage(st: TableState, page: int): (r: (TableState, TableView))
    ensures r.0.filtered == st.filtered && r.0.skins == st.skins
    ensures r.0.currentPage == page
    ensures r.1.rows == PageRows(st.filtered, page)
    ensures r.1.controls == Controls(TotalPages(|st.filtered|), page)
  {
    (st.(currentPage := page), RenderTable(st.filtered, page, page))
  }

  /** The reset button: an empty table; `currentPage` is left as it was. */
  function Reset(st: TableState): (r: (TableState, TableView))
    ensures r.0.filtered == [] && r.0.skins == st.skins && r.0.currentPage == st.currentPage
    ensures r.1 == TableView([], [])
  {
    (st.(filtered := []), RenderTable([], 1, st.currentPage))
  }

  /** The current page is a real page of the stored list (or the list is
      empty). */
  ghost predicate Valid(st: TableState)
  {
    1 <= st.currentPage && (st.filtered == [] || st.currentPage <= TotalPages(|st.filtered|))
  }

  /** Every event keeps the page within range, given that clicks only come
      from buttons on screen. */
  lemma EventsKeepPageInRange(st: TableState, input: string, week: string, page: int)
    requires Valid(st)
    ensures Valid(Init(st.skins).0)
    ensures Valid(ApplyFilters(st, input, week).0)
    ensures Valid(Reset(st).0)
    ensures page in ButtonPages(Controls(TotalPages(|st.filtered|), st.currentPage)) ==> Valid(ClickPage(st, page).0)
  {
    var tp := TotalPages(|st.filtered|);
    if page in ButtonPages(Controls(tp, st.currentPage)) {
      assert tp > 1;
      ControlsButtons(tp, st.currentPage);
    }
  }

  /** In range, the page shown is never empty unless the list is. */
  lemma ValidPageHasRows(st: TableState)
    requires Valid(st) && st.filtered != []
    ensures 0 < |PageRows(st.filtered, st.currentPage)| <= RowsPerPage
  {
    PageRowsWindow(st.filtered, st.currentPage);
  }
}

=== FILE: records.dfy ===
/** The data the pages work on: sale records read from the spreadsheet
    feed and the champion catalog read from Data Dragon. Both arrive as
    JSON; here they are immutable values passed in by the caller. */
module Records {
  import opened Options

  /** One spreadsheet row. Fields the feed may leave out are optional:
      `discount` (current sales), `week` (past sales), `category` and
      `patch` (mythic shop). */
  datatype SaleRecord = SaleRecord(
    champion: string,
    skin: string,
    price: int,
    discount: Option<int>,
    spotlight: string,
    week: Option<string>,
    category: Option<string>,
    patch: Option<string>)

  /** One entry of a champion's `skins` list: display name and the
      number the splash art is filed under. */
  datatype Skin = Skin(name: string, num: int)

  /** One champion of `championFull.json`: catalog key, display name and
      skins in catalog order. */
  datatype Champion = Champion(id: string, name: string, skins: seq<Skin>)

  /** The catalog's champions in `Object.values` order. */
  type Catalog = seq<Champion>
}

=== FILE: resolution.dfy ===
/** The resolution helpers shared, with identical logic, by the current-sales page
    (scripts/script.js) and the mythic-shop page (scripts/mythic-skins.js):
    champion-name resolution, skin matching, splash URL building, the
    memoised catalog, and the loop that turns sale records into cards. */
module Resolution {
  import opened Options
  import opened Seqs
  import opened Ascii
  import opened Decimal
  import opened Records

  // ---------------------------------------------------------------------
  // Champion-name resolution

  /** Characters the name comparison ignores: `'` and whitespace. */
  predicate IsNameSeparator(c: char)
  {
    c == '\'' || IsWhitespace(c)
  }

  /** Keeps the characters the name comparison looks at. */
  function NotSeparatorFn(): char -> bool
  {
    c => !IsNameSeparator(c)
  }

  /** `replace(/['\s]/g, "")`: every character other than `'` and
      whitespace is kept, in order, and nothing else. */
  function StripSeparators(s: string): (r: string)
    ensures IsSubsequence(r, s)
    ensures |r| == Count(NotSeparatorFn(), s)
    ensures forall k :: 0 <= k < |r| ==> !IsNameSeparator(r[k]) && r[k] in s
  {
    if s == [] then []
    else if IsNameSeparator(s[0]) then StripSeparators(s[1..])
    else [s[0]] + StripSeparators(s[1..])
  }

  /** `name.toLowerCase().replace(/['\s]/g, "")`. */
  function Normalize(s: string): (r: string)
    ensures IsSubsequence(r, LowerStr(s))
    ensures |r| == Count(NotSeparatorFn(), LowerStr(s))
    ensures forall k :: 0 <= k < |r| ==> !IsNameSeparator(r[k]) && !IsUpper(r[k])
  {
    StripSeparators(LowerStr(s))
  }

  lemma {:induction false} StripAppend(a: string, b: string)
    ensures StripSeparators(a + b) == StripSeparators(a) + StripSeparators(b)
    decreases |a|
  {
    if a == [] {
      assert a + b == b;
    } else {
      assert (a + b)[1..] == a[1..] + b;
      StripAppend(a[1..], b);
    }
  }

  lemma {:induction false} StripClean(s: string)
    requires forall k :: 0 <= k < |s| ==> !IsNameSeparator(s[k])
    ensures StripSeparators(s) == s
    decreases |s|
  {
    if s != [] {
      StripClean(s[1..]);
    }
  }

  lemma NormalizeAppend(a: string, b: string)
    ensures Normalize(a + b) == Normalize(a) + Normalize(b)
  {
    LowerStrAppend(a, b);
    StripAppend(LowerStr(a), LowerStr(b));
  }

  /** A normalised name is its own normal form. */
  lemma NormalizeIdempotent(s: string)
    ensures Normalize(Normalize(s)) == Normalize(s)
  {
    var n := Normalize(s);
    assert LowerStr(n) == n;
    StripClean(n);
  }

  /** Normalising ignores case. */
  lemma NormalizeIgnoresCase(s: string)
    ensures Normalize(LowerStr(s)) == Normalize(s)
  {
    LowerStrIdempotent(s);
  }

  /** Normalising ignores an apostrophe or whitespace character wherever
      it stands. */
  lemma NormalizeIgnoresSeparator(a: string, x: char, b: string)
    requires IsNameSeparator(x)
    ensures Normalize(a + [x] + b) == Normalize(a + b)
  {
    NormalizeAppend(a + [x], b);
    NormalizeAppend(a, [x]);
    NormalizeAppend(a, b);
    NormalizeSeparator(x);
  }

  lemma NormalizeSeparator(x: char)
    requires IsNameSeparator(x)
    ensures Normalize([x]) == []
  {
    assert LowerStr([x]) == [Lower(x)];
  }

  predicate NameMatches(entry: Champion, name: string)
  {
    Normalize(entry.name) == Normalize(name)
  }

  /** Matches entries whose normalised name is `key`. */
  function NameKeyFn(key: string): Champion -> bool
  {
    (c: Champion) => Normalize(c.name) == key
  }

  /** `getChampionId`: the id of the first catalog entry whose normalised
      name equals the normalised query, or `null` when there is none. */
  function GetChampionId(catalog: Catalog, name: string): (r: Option<string>)
    ensures r.None? <==> forall j :: 0 <= j < |catalog| ==> !NameMatches(catalog[j], name)
    ensures forall i :: IsFirst(NameKeyFn(Normalize(name)), catalog, i) ==> r == Some(catalog[i].id)
  {
    var found := FirstIndex(NameKeyFn(Normalize(name)), catalog);
    if found.None? then None
    else
      FirstIsUniqueAll(NameKeyFn(Normalize(name)), catalog, found.value);
      Some(catalog[found.value].id)
  }

  /** Resolution depends on the query only through its normal form. */
  lemma ResolveSameNormalForm(catalog: Catalog, a: string, b: string)
    requires Normalize(a) == Normalize(b)
    ensures GetChampionId(catalog, a) == GetChampionId(catalog, b)
  {
  }

  /** Two queries differing only in letter case resolve alike
      ("Miss Fortune" and "miss fortune"). */
  lemma ResolveIgnoresCase(catalog: Catalog, name: string)
    ensures GetChampionId(catalog, LowerStr(name)) == GetChampionId(catalog, name)
  {
    NormalizeIgnoresCase(name);
    ResolveSameNormalForm(catalog, LowerStr(name), name);
  }

  /** Inserting an apostrophe or whitespace character anywhere in the query
      does not change the result ("Kai'Sa", "KaiSa", "Kai Sa"). */
  lemma ResolveIgnoresSeparator(catalog: Catalog, a: string, x: char, b: string)
    requires IsNameSeparator(x)
    ensures GetChampionId(catalog, a + [x] + b) == GetChampionId(catalog, a + b)
  {
    NormalizeIgnoresSeparator(a, x, b);
    ResolveSameNormalForm(catalog, a + [x] + b, a + b);
  }

  // ---------------------------------------------------------------------
  // Skin matching

  /** `name.trim().toLowerCase()`. */
  function SkinKey(s: string): string
  {
    LowerStr(Trim(s))
  }

  predicate SkinMatches(skin: Skin, skinName: string)
  {
    SkinKey(skin.name) == SkinKey(skinName)
  }

  /** Matches skins whose trimmed, lower-cased name is `key`. */
  function SkinKeyFn(key: string): Skin -> bool
  {
    (s: Skin) => SkinKey(s.name) == key
  }

  predicate NoSkinMatches(skins: seq<Skin>, skinName: string)
  {
    forall j :: 0 <= j < |skins| ==> !SkinMatches(skins[j], skinName)
  }

  /** `skins.find(s => trimmed, lower-cased names equal)?.num || 0`: the
      `num` field of the first matching skin (not its position), and 0 when
      nothing matches. A found `num` of 0 yields 0 either way. */
  function MatchSkin(skins: seq<Skin>, skinName: string): (n: int)
    ensures forall i :: IsFirst(SkinKeyFn(SkinKey(skinName)), skins, i) ==> n == skins[i].num
    ensures NoSkinMatches(skins, skinName) ==> n == 0
  {
    var found := FirstIndex(SkinKeyFn(SkinKey(skinName)), skins);
    if found.None? then 0
    else
      FirstIsUniqueAll(SkinKeyFn(SkinKey(skinName)), skins, found.value);
      skins[found.value].num
  }

  /** Surrounding whitespace and letter case of the requested skin name do
      not affect the match. */
  lemma MatchSkinIgnoresCaseAndPadding(skins: seq<Skin>, a: string, s: string, b: string)
    requires AllWhitespace(a) && AllWhitespace(b)
    ensures MatchSkin(skins, a + LowerStr(s) + b) == MatchSkin(skins, s)
  {
    TrimPadded(a, LowerStr(s), b);
    TrimOfLower(s);
    LowerStrIdempotent(Trim(s));
    assert SkinKey(a + LowerStr(s) + b) == SkinKey(s);
  }

  /** Trimming commutes with lower-casing, since case maps fix whitespace. */
  lemma {:induction false} TrimOfLower(s: string)
    ensures Trim(LowerStr(s)) == LowerStr(Trim(s))
  {
    TrimStartOfLower(s);
    TrimEndOfLower(TrimStart(s));
  }

  lemma {:induction false} TrimStartOfLower(s: string)
    ensures TrimStart(LowerStr(s)) == LowerStr(TrimStart(s))
    decreases |s|
  {
    if s != [] {
      assert LowerStr(s)[1..] == LowerStr(s[1..]);
      TrimStartOfLower(s[1..]);
    }
  }

  lemma {:induction false} TrimEndOfLower(s: string)
    ensures TrimEnd(LowerStr(s)) == LowerStr(TrimEnd(s))
    decreases |s|
  {
    if s != [] {
      assert LowerStr(s)[..|s| - 1] == LowerStr(s[..|s| - 1]);
      TrimEndOfLower(s[..|s| - 1]);
    }
  }

  function HasIdFn(id: string): Champion -> bool
  {
    (c: Champion) => c.id == id
  }

  /** `findSkinNumber(championId, skinName)`: look the champion up by its
      catalog key; 0 when it is absent, otherwise the `num` of its first
      skin whose trimmed, lower-cased name equals the trimmed, lower-cased
      query, and 0 when none does. */
  function FindSkinNumber(catalog: Catalog, id: string, skinName: string): (n: int)
    ensures (forall j :: 0 <= j < |catalog| ==> catalog[j].id != id) ==> n == 0
    ensures forall i :: IsFirst(HasIdFn(id), catalog, i) ==> n == MatchSkin(catalog[i].skins, skinName)
  {
    var found := FirstIndex(HasIdFn(id), catalog);
    if found.None? then 0
    else
      FirstIsUniqueAll(HasIdFn(id), catalog, found.value);
      MatchSkin(catalog[found.value].skins, skinName)
  }

  // ---------------------------------------------------------------------
  // Splash URLs

  const SplashBase: string := "https://ddragon.leagueoflegends.com/cdn/img/champion/splash/"

  /** Catalog keys the image host spells differently. */
  const SplashSpecialCases: map<string, string> := map["Fiddlesticks" := "FiddleSticks"]

  /** `specialCases[championId] || championId`. */
  function SplashId(id: string): (r: string)
    ensures r == (if id == "Fiddlesticks" then "FiddleSticks" else id)
  {
    if id in SplashSpecialCases && SplashSpecialCases[id] != "" then SplashSpecialCases[id] else id
  }

  /** The last position of `c` in `s`, if any. */
  function LastIndexOf(s: string, c: char): (r: Option<nat>)
    ensures r.Some? ==> r.value < |s| && s[r.value] == c && forall k :: r.value < k < |s| ==> s[k] != c
    ensures r.None? ==> forall k :: 0 <= k < |s| ==> s[k] != c
  {
    if s == [] then None
    else if s[|s| - 1] == c then Some(|s| - 1)
    else LastIndexOf(s[..|s| - 1], c)
  }

  /** `<prefix><id>_<num><ext>`: a key and a number filed between a fixed
      prefix and extension. */
  function KeyedUrl(prefix: string, ext: string, id: string, num: int): string
  {
    prefix + id + "_" + IntToString(num) + ext
  }

  /** Reads `<id>_<num>` back: the key runs up to the last `_`, and the
      number must be spelled as `${n}` spells it. */
  function SplitKeyed(middle: string): Option<(string, int)>
  {
    match LastIndexOf(middle, '_')
    case None => None
    case Some(k) =>
      var n := ParseNumeral(middle[k + 1..]);
      if n.Some? then Some((middle[..k], n.value)) else None
  }

  /** Reads the key and number back out of `<prefix><id>_<num><ext>`. */
  function ParseKeyedUrl(prefix: string, ext: string, url: string): Option<(string, int)>
  {
    if |url| < |prefix| + |ext| || url[..|prefix|] != prefix || url[|url| - |ext|..] != ext then None
    else SplitKeyed(url[|prefix|..|url| - |ext|])
  }

  /** `<id>_<num>` splits back into the key and the number, even when the
      key itself contains `_`. */
  lemma SplitKeyedRoundTrip(id: string, num: int)
    ensures SplitKeyed(id + "_" + IntToString(num)) == Some((id, num))
  {
    var digits := IntToString(num);
    var middle := id + "_" + digits;
    IntStringChars(num);
    assert middle[|id|] == '_';
    assert LastIndexOf(middle, '_') == Some(|id|);
    assert middle[..|id|] == id;
    assert middle[|id| + 1..] == digits;
    NumeralRoundTrip(num);
  }

  /** A keyed URL determines the key and number it was built from. */
  lemma KeyedUrlRoundTrip(prefix: string, ext: string, id: string, num: int)
    ensures ParseKeyedUrl(prefix, ext, KeyedUrl(prefix, ext, id, num)) == Some((id, num))
  {
    var url := KeyedUrl(prefix, ext, id, num);
    var middle := id + "_" + IntToString(num);
    assert url == prefix + middle + ext;
    assert url[..|prefix|] == prefix;
    assert url[|url| - |ext|..] == ext;
    assert url[|prefix|..|url| - |ext|] == middle;
    SplitKeyedRoundTrip(id, num);
  }

  /** A string is its prefix, middle and suffix laid end to end. */
  lemma Reassemble(url: string, a: string, z: string)
    requires |a| + |z| <= |url| && url[..|a|] == a && url[|url| - |z|..] == z
    ensures url == a + url[|a|..|url| - |z|] + z
  {
  }

  /** Only `<id>_<num>` itself splits into `id` and `num`. */
  lemma SplitKeyedUnique(middle: string, id: string, num: int)
    requires SplitKeyed(middle) == Some((id, num))
    ensures middle == id + "_" + IntToString(num)
  {
    var k := LastIndexOf(middle, '_').value;
    var digits := middle[k + 1..];
    assert id == middle[..k] && ParseNumeral(digits) == Some(num);
    assert middle == middle[..k] + [middle[k]] + digits;
  }

  /** Only the keyed URL of a key and number parses back to them: the parse
      pins down the URL text, numeral spelling included. */
  lemma KeyedUrlUnique(prefix: string, ext: string, url: string, id: string, num: int)
    requires ParseKeyedUrl(prefix, ext, url) == Some((id, num))
    ensures url == KeyedUrl(prefix, ext, id, num)
  {
    Reassemble(url, prefix, ext);
    SplitKeyedUnique(url[|prefix|..|url| - |ext|], id, num);
  }

  /** `<base><id>_<num>.jpg`. */
  function SplashUrlFor(id: string, num: int): string
  {
    KeyedUrl(SplashBase, ".jpg", id, num)
  }

  /** Reads the champion key and skin number back out of a splash URL. */
  function ParseSplashUrl(url: string): Option<(string, int)>
  {
    ParseKeyedUrl(SplashBase, ".jpg", url)
  }

  /** A splash URL determines the key and number it was built from. */
  lemma SplashUrlRoundTrip(id: string, num: int)
    ensures ParseSplashUrl(SplashUrlFor(id, num)) == Some((id, num))
  {
    KeyedUrlRoundTrip(SplashBase, ".jpg", id, num);
  }

  /** Only the splash URL of a key and number parses back to them. */
  lemma SplashUrlUnique(url: string, id: string, num: int)
    requires ParseSplashUrl(url) == Some((id, num))
    ensures url == SplashUrlFor(id, num)
  {
    KeyedUrlUnique(SplashBase, ".jpg", url, id, num);
  }

  /** `buildSplashUrl` (shared helper): the special-case table, then the
      URL format. */
  function BuildSplashUrl(id: string, num: int): (url: string)
    ensures ParseSplashUrl(url) == Some((SplashId(id), num))
  {
    SplashUrlRoundTrip(SplashId(id), num);
    SplashUrlFor(SplashId(id), num)
  }

  /** The built URL is the only text that parses back to its key and
      number, so the parse-back contract fixes it character for character
      (`…/Ahri_0.jpg`, never `…/Ahri_00.jpg`). */
  lemma BuildSplashUrlExact(id: string, num: int, u: string)
    requires ParseSplashUrl(u) == Some((SplashId(id), num))
    ensures u == BuildSplashUrl(id, num)
  {
    SplashUrlUnique(u, SplashId(id), num);
  }

  /** The shared `buildSplashUrl` files the image under "FiddleSticks" for
      "Fiddlesticks", under the key itself for every other key, and under
      the given skin number. */
  lemma BuildSplashUrlNames(id: string, num: int)
    ensures ParseSplashUrl(BuildSplashUrl(id, num)) == Some((if id == "Fiddlesticks" then "FiddleSticks" else id, num))
  {
    SplashUrlRoundTrip(SplashId(id), num);
  }

  // ---------------------------------------------------------------------
  // The memoised catalog

  /** `fetchChampionFull`: the cached catalog when there is one, otherwise
      the freshly fetched one, which becomes the cache. */
  function LoadCatalog(cache: Option<Catalog>, fetched: Catalog): (r: (Catalog, Option<Catalog>))
    ensures r.1 == Some(r.0)
    ensures cache.Some? ==> r.0 == cache.value && r.1 == cache
    ensures cache.None? ==> r.0 == fetched
  {
    match cache
    case Some(c) => (c, cache)
    case None => (fetched, Some(fetched))
  }

  /** Once loaded, the catalog never changes, whatever later fetches would
      have returned. */
  lemma LoadCatalogOnce(cache: Option<Catalog>, first: Catalog, second: Catalog)
    ensures LoadCatalog(LoadCatalog(cache, first).1, second).0 == LoadCatalog(cache, first).0
  {
  }

  // ---------------------------------------------------------------------
  // Cards

  /** What one card shows: the record, the resolved key and skin number,
      and the splash image URL. */
  datatype Card = Card(record: SaleRecord, championId: string, skinNum: int, splashUrl: string)

  /** The champion resolves to a truthy id: `if (!champId) continue;`
      skips both `null` and the empty string. */
  predicate Resolves(catalog: Catalog, rec: SaleRecord)
  {
    GetChampionId(catalog, rec.champion).Some? && GetChampionId(catalog, rec.champion).value != ""
  }

  function ResolvesFn(catalog: Catalog): SaleRecord -> bool
  {
    rec => Resolves(catalog, rec)
  }

  /** The body of one loop iteration: resolve the champion (no card when
      it does not resolve), match the skin, build the URL. */
  function CardFor(catalog: Catalog, rec: SaleRecord): (r: Option<Card>)
    ensures r.Some? <==> Resolves(catalog, rec)
    ensures r.Some? ==> r.value.record == rec
  {
    match GetChampionId(catalog, rec.champion)
    case None => None
    case Some(champId) =>
      if champId == "" then None
      else
        var skinNum := FindSkinNumber(catalog, champId, rec.skin);
        Some(Card(rec, champId, skinNum, BuildSplashUrl(champId, skinNum)))
  }

  /** A card agrees with the catalog about its record. */
  predicate IsCardFor(catalog: Catalog, card: Card)
  {
    CardFor(catalog, card.record) == Some(card)
  }

  /** A card that agrees with the catalog names the champion its record
      resolves to, that champion's matched skin number, and a splash URL
      filed under the special-cased key and that number. */
  lemma CardShows(catalog: Catalog, card: Card)
    requires IsCardFor(catalog, card)
    ensures GetChampionId(catalog, card.record.champion) == Some(card.championId)
    ensures card.skinNum == FindSkinNumber(catalog, card.championId, card.record.skin)
    ensures ParseSplashUrl(card.splashUrl) == Some((SplashId(card.championId), card.skinNum))
  {
    BuildSplashUrlNames(card.championId, card.skinNum);
  }

  function CardRecords(cards: seq<Card>): (r: seq<SaleRecord>)
    ensures |r| == |cards|
    ensures forall k :: 0 <= k < |cards| ==> r[k] == cards[k].record
  {
    if cards == [] then [] else [cards[0].record] + CardRecords(cards[1..])
  }

  /** One more record in: the cards so far stay, followed by this record's
      card when its champion resolves. */
  lemma CardsStep(shown: SaleRecord -> bool, records: seq<SaleRecord>, i: nat, cards: seq<Card>, next: seq<Card>)
    requires i < |records|
    requires CardRecords(cards) == Filter(shown, records[..i])
    requires shown(records[i]) ==> |next| == 1 && next[0].record == records[i]
    requires !shown(records[i]) ==> next == []
    ensures CardRecords(cards + next) == Filter(shown, records[..i + 1])
  {
    assert records[..i + 1] == records[..i] + [records[i]];
    FilterSnoc(shown, records[..i], records[i]);
    assert CardRecords(cards + next) == CardRecords(cards) + CardRecords(next);
  }

  lemma AllCardsForSnoc(catalog: Catalog, cards: seq<Card>, card: Card)
    requires forall k :: 0 <= k < |cards| ==> IsCardFor(catalog, cards[k])
    requires IsCardFor(catalog, card)
    ensures forall k :: 0 <= k < |cards + [card]| ==> IsCardFor(catalog, (cards + [card])[k])
  {
  }

  /** `cards` shows exactly the records of `records` whose champion
      resolves, in their order, each card agreeing with the catalog. */
  predicate CardsFor(catalog: Catalog, records: seq<SaleRecord>, cards: seq<Card>)
  {
    && CardRecords(cards) == Filter(ResolvesFn(catalog), records)
    && forall k :: 0 <= k < |cards| ==> IsCardFor(catalog, cards[k])
  }

  /** The render loop: one card per record whose champion resolves, in input
      order; a record whose champion does not resolve is skipped and the
      loop carries on. */
  method RenderCards(catalog: Catalog, records: seq<SaleRecord>) returns (cards: seq<Card>)
    ensures CardsFor(catalog, records, cards)
  {
    cards := [];
    var i := 0;
    while i < |records|
      invariant 0 <= i <= |records|
      invariant CardRecords(cards) == Filter(ResolvesFn(catalog), records[..i])
      invariant forall k :: 0 <= k < |cards| ==> IsCardFor(catalog, cards[k])
    {
      var rec := records[i];
      var card := CardFor(catalog, rec);
      if card.None? {
        CardsStep(ResolvesFn(catalog), records, i, cards, []);
        assert cards + [] == cards;
        i := i + 1;
        continue;
      }
      CardsStep(ResolvesFn(catalog), records, i, cards, [card.value]);
      AllCardsForSnoc(catalog, cards, card.value);
      cards := cards + [card.value];
      i := i + 1;
    }
    assert records[..i] == records;
  }
}

=== FILE: seqs.dfy ===
/** Optional values, and the sequence vocabulary the pages rely on:
    order-preserving subsequences, filtering and first-match search
    (JavaScript's `Array.prototype.filter` and `Array.prototype.find`). */
module Options {

  /** A value that may be absent (`null` / `undefined` in the pages). */
  datatype Option<T> = None | Some(value: T)
}

module Seqs {
  import opened Options

  /** `a` is obtained from `b` by deleting elements, keeping their order. */
  predicate IsSubsequence<T(==)>(a: seq<T>, b: seq<T>)
    decreases |b|
  {
    a == [] || (b != [] && ((a[0] == b[0] && IsSubsequence(a[1..], b[1..])) || IsSubsequence(a, b[1..])))
  }

  lemma {:induction false} SubsequenceTransitive<T>(a: seq<T>, b: seq<T>, c: seq<T>)
    requires IsSubsequence(a, b) && IsSubsequence(b, c)
    ensures IsSubsequence(a, c)
    decreases |c|
  {
    if a != [] {
      assert b != [] && c != [];
      if b[0] == c[0] && IsSubsequence(b[1..], c[1..]) {
        if a[0] == b[0] && IsSubsequence(a[1..], b[1..]) {
          SubsequenceTransitive(a[1..], b[1..], c[1..]);
        } else {
          SubsequenceTransitive(a, b[1..], c[1..]);
        }
      } else {
        SubsequenceTransitive(a, b, c[1..]);
      }
    }
  }

  /** Every element of a subsequence occurs in the sequence. */
  lemma {:induction false} SubsequenceMembers<T>(a: seq<T>, b: seq<T>)
    requires IsSubsequence(a, b)
    ensures forall k :: 0 <= k < |a| ==> exists j :: 0 <= j < |b| && b[j] == a[k]
    decreases |b|
  {
    if a != [] {
      if a[0] == b[0] && IsSubsequence(a[1..], b[1..]) {
        SubsequenceMembers(a[1..], b[1..]);
        forall k | 0 <= k < |a|
          ensures exists j :: 0 <= j < |b| && b[j] == a[k]
        {
          if k == 0 {
            assert b[0] == a[0];
          } else {
            var j :| 0 <= j < |b[1..]| && b[1..][j] == a[1..][k - 1];
            assert b[j + 1] == a[k];
          }
        }
      } else {
        SubsequenceMembers(a, b[1..]);
        forall k | 0 <= k < |a|
          ensures exists j :: 0 <= j < |b| && b[j] == a[k]
        {
          var j :| 0 <= j < |b[1..]| && b[1..][j] == a[k];
          assert b[j + 1] == a[k];
        }
      }
    }
  }

  /** Number of positions of `s` whose element satisfies `keep`. */
  function Count<T>(keep: T -> bool, s: seq<T>): nat
  {
    if s == [] then 0 else (if keep(s[0]) then 1 else 0) + Count(keep, s[1..])
  }

  /** `Array.prototype.filter`: the elements satisfying `keep`, in order. */
  function Filter<T(==)>(keep: T -> bool, s: seq<T>): (r: seq<T>)
    ensures IsSubsequence(r, s)
    ensures forall k :: 0 <= k < |r| ==> keep(r[k])
    ensures forall k :: 0 <= k < |s| && keep(s[k]) ==> s[k] in r
    ensures |r| == Count(keep, s)
  {
    if s == [] then []
    else if keep(s[0]) then [s[0]] + Filter(keep, s[1..])
    else Filter(keep, s[1..])
  }

  /** Filtering distributes over appending one more element: the
      elements seen so far keep their place. */
  lemma {:induction false} FilterSnoc<T>(keep: T -> bool, s: seq<T>, x: T)
    ensures Filter(keep, s + [x]) == Filter(keep, s) + (if keep(x) then [x] else [])
    decreases |s|
  {
    if s == [] {
      assert s + [x] == [x];
    } else {
      assert (s + [x])[1..] == s[1..] + [x];
      FilterSnoc(keep, s[1..], x);
    }
  }

  /** A predicate that holds everywhere keeps the sequence whole. */
  lemma {:induction false} FilterAll<T>(keep: T -> bool, s: seq<T>)
    requires forall k :: 0 <= k < |s| ==> keep(s[k])
    ensures Filter(keep, s) == s
    decreases |s|
  {
    if s != [] {
      FilterAll(keep, s[1..]);
    }
  }

  /** `s[i]` is the first element of `s` satisfying `p`. */
  predicate IsFirst<T>(p: T -> bool, s: seq<T>, i: int)
  {
    0 <= i < |s| && p(s[i]) && forall j :: 0 <= j < i ==> !p(s[j])
  }

  /** `Array.prototype.find`, returning the position of the element found. */
  function FirstIndex<T>(p: T -> bool, s: seq<T>): (r: Option<nat>)
    ensures r.Some? ==> IsFirst(p, s, r.value)
    ensures r.None? <==> forall j :: 0 <= j < |s| ==> !p(s[j])
  {
    if s == [] then None
    else if p(s[0]) then Some(0)
    else match FirstIndex(p, s[1..])
      case None => None
      case Some(i) => Some(i + 1)
  }

  /** A first match found is the only first match. */
  lemma FirstIsUniqueAll<T>(p: T -> bool, s: seq<T>, f: int)
    requires IsFirst(p, s, f)
    ensures forall i :: IsFirst(p, s, i) ==> i == f
  {
  }
}

=== FILE: week_window.dfy ===
/** The "current week" banner: weeks are counted from a fixed epoch in
    whole milliseconds, and the week containing "now" is displayed. Both
    pages that show the banner (scripts/script.js and script.js) compute it
    the same way. */
module WeekWindow {

  /** `7 * 24 * 60 * 60 * 1000`. */
  const MsPerWeek: int := 7 * 24 * 60 * 60 * 1000

  /** A half-open interval of instants, `[start, end)`, in milliseconds. */
  datatype Window = Window(start: int, end: int)

  /** `Math.floor(a / b)` for a positive divisor. */
  function FloorDiv(a: int, b: int): (q: int)
    requires b > 0
    ensures q * b <= a < q * b + b
  {
    a / b
  }

  /** `weeksPassed = floor((now - epoch) / msPerWeek)`, the week starting
      `weeksPassed` weeks after the epoch, and the next week's start. */
  function CurrentWeek(epoch: int, now: int): (w: Window)
    ensures w.start <= now < w.end
    ensures w.end - w.start == MsPerWeek
    ensures (w.start - epoch) % MsPerWeek == 0
  {
    var weeksPassed := FloorDiv(now - epoch, MsPerWeek);
    var start := epoch + weeksPassed * MsPerWeek;
    Window(start, start + MsPerWeek)
  }

  /** The displayed week is the only week-aligned window containing "now",
      before the epoch as well as after it. */
  lemma CurrentWeekUnique(epoch: int, now: int, start: int)
    requires (start - epoch) % MsPerWeek == 0
    requires start <= now < start + MsPerWeek
    ensures CurrentWeek(epoch, now) == Window(start, start + MsPerWeek)
  {
    var w := CurrentWeek(epoch, now);
    var a := (start - epoch) / MsPerWeek;
    var b := (w.start - epoch) / MsPerWeek;
    assert start == epoch + a * MsPerWeek;
    assert w.start == epoch + b * MsPerWeek;
  }

  /** Every instant of the displayed week displays the same week. */
  lemma CurrentWeekStable(epoch: int, now: int, later: int)
    requires CurrentWeek(epoch, now).start <= later < CurrentWeek(epoch, now).end
    ensures CurrentWeek(epoch, later) == CurrentWeek(epoch, now)
  {
    var w := CurrentWeek(epoch, now);
    CurrentWeekUnique(epoch, later, w.start);
  }
}
